=== FILE: README.md ===
# meilisearch-go errors, in Dafny

This project models the unified error value of the meilisearch-go client
(`error.go`). Every call of the library reports a failure with this value.
The model covers:

- the `ErrCode` enumeration and its `iota + 1` numbering;
- the message template each code selects (`ErrCode.rawMessage`);
- the `${key}` substitution helper `namedSprintf`;
- `Error.Error()`, which renders the message and appends a cause;
- the mutators `WithErrCode` and `ErrorBody`.

The files and modules:

- `wrappers.dfy` (`Wrappers`): `Option`, which stands for a Go `nil`.
- `strings.dfy` (`Strings`): Go's `strings.ReplaceAll`, character by character.
- `format.dfy` (`Format`): the two uses of `fmt.Sprintf("%v")` in `Error()`, one for `int` and one for `[]int`.
- `template.dfy` (`Template`):
  - `NamedSprintf`, as written: one `ReplaceAll` per key, with the map's iteration order passed in as `order`.
  - `Expand`, a single-pass substitution.
  - Templates viewed as lists of text and placeholder pieces (`Flatten`). This is how both substitutions are related.
- `codes.dfy` (`ErrCodes`): the code constants, the templates as piece lists, and `RawMessage`.
- `errors.dfy` (`Errors`):
  - the `Error` record;
  - `ErrorString`, which is `Error()`;
  - `WithErrCode` and `ErrorBody`, as functional updates;
  - `Render`, the corrected rendering.

Go map iteration order is unspecified, so `Error()` takes the order as a
parameter. `Enumerates(order, keys)` says that `order` lists every key
exactly once. The main results are:

- Order independence for `Error()`: if no field holds `${`, every order gives
  the same message, and that message is the single-pass one. This works
  because every template is separated: each placeholder is followed by text
  that does not start with `{`, or ends the template. So a value ending in
  `$` cannot open a new placeholder.
- For an arbitrary well-formed template, values must hold no `$` at all.
  "No value holds `${`" is not enough there: `Template.DollarBraceFreeNotEnough`
  proves this with a template that is not separated.
- When a field itself holds a placeholder, `Error()` can depend on the order.
  The Findings row shows one such case: a request text of `${method}` under
  the marshal-request code. A placeholder of a key missing from the map, or
  of a key the template does not name, leaves the order irrelevant.

## Model

| member | source | states |
|---|---|---|
| `ErrCodes.NumericCodes` | error.go:14-29 | The seven codes are worth 0, 2, 3, 4, 5, 6 and 7. No constant of the block is worth 1. The codes are pairwise distinct. |
| `ErrCodes.RawMessageOwn` | error.go:41-54 | Each of the six named non-Unknown codes selects its own template, then a space, then the request context. |
| `ErrCodes.RawMessageDefault` | error.go:55-56 | Unknown, and any integer that is not one of the six codes, selects the context template alone. |
| `ErrCodes.RawMessageEndsWithContext` | error.go:41-58 | Every selected message ends with the context template. It equals the context alone exactly when the code has no template of its own. |
| `ErrCodes.RawMessagePieces` | error.go:31-58 | Every selected template spells a well-formed piece list. Its text holds no `$`, and its placeholders have plain keys. |
| `ErrCodes.PiecesSeparated` | error.go:31-58 | In every selected template, each placeholder either ends the template or is followed by non-empty text that does not start with `{`. |
| `ErrCodes.PiecesHoleKeys` | error.go:32-38 | Every placeholder in every template names a key of the map `Error()` fills. Only the full API error template names `errorCode`, `errorType` or `errorLink`. |
| `Strings.ReplaceAll` | error.go:153 | Replacing a pattern by itself leaves the string unchanged. |
| `Strings.ReplaceAllAbsent` | error.go:153 | A string in which the pattern does not occur comes back unchanged. |
| `Strings.ReplaceAllSkipsUnmatched` | error.go:153 | A prefix at which no occurrence of the pattern starts is copied unchanged. The rest is replaced on its own. |
| `Format.NatToString` | error.go:114 | `%v` of a non-negative int gives decimal digits with no leading zero, which denote the number again. |
| `Format.IntToString` | error.go:114 | `%v` of an int starts with a minus sign exactly when the int is negative. Its digits denote the magnitude with no leading zero, and it holds no `$` and no space. |
| `Format.IntToStringInjective` | error.go:114 | Two ints print the same `%v` text only if they are equal. |
| `Format.JoinIntsConcat` | error.go:113 | The element text of two non-empty slices one after the other is the first's text, a space, then the second's. |
| `Format.JoinIntsSpaces` | error.go:113 | The element text of a non-empty slice holds exactly one space fewer than the slice has elements, so the spaces are exactly the separators. |
| `Format.IntsToString` | error.go:113 | `%v` of an `[]int` is bracketed and holds no `$`. It is `[]` exactly for the empty slice, and a one-element slice prints its element's decimal text in brackets. |
| `Format.IntsToStringConcat` | error.go:113 | `%v` of a concatenation of two non-empty slices is both halves' element texts in one pair of brackets, joined by a space. With the one-element case, this fixes the text of every slice. |
| `Template.NamedSprintf` | error.go:151-156 | With no parameters, or with a format that holds none of the keys' placeholders, the result is the format itself. |
| `Template.ReplaceAllFlatten` | error.go:153 | One `ReplaceAll` step on a well-formed template fills exactly the placeholders of that key, whatever the value holds. |
| `Template.ReplaceAllRemovesKey` | error.go:153 | After a `ReplaceAll` step whose value holds no `$`, no placeholder of that key is left in a well-formed template. |
| `Template.NamedSprintfFlatten` | error.go:151-156 | On a well-formed template, if no value holds a `$`, the result is the template with every placeholder of a map key replaced by its value. |
| `Template.NamedSprintfOrderIndependent` | error.go:151-156 | On a well-formed template, if no value holds a `$`, every key order gives the same result. |
| `Template.DollarBraceFreeNotEnough` | error.go:151-156 | On a well-formed template that is not separated, values free of `${` do not make the result order independent. Template `${a}{b}` with `a` = `$` and `b` = `x` gives `x` in one order and `${b}` in the other. |
| `Template.ReplaceAllFlattenOpens` | error.go:153 | One `ReplaceAll` step fills exactly the placeholders of that key in a template whose text may hold `$`, as long as `${` shows only where a placeholder starts. |
| `Template.FillKeysOpensOnlyAtHoles` | error.go:152-154 | Filling any set of keys in a well-formed, separated template with values free of `${` leaves `${` only where a placeholder is still unfilled. |
| `Template.NamedSprintfSeparated` | error.go:151-156 | On a well-formed, separated template, if no value holds `${`, the result fills every placeholder of a map key with its value, and equals the single-pass result. |
| `Template.NamedSprintfSeparatedOrderIndependent` | error.go:151-156 | On a well-formed, separated template, if no value holds `${`, every key order gives the same result. |
| `Template.ReplaceEachConcat` | error.go:152-154 | Substituting along two key lists in a row is the same as substituting along their concatenation. |
| `Template.InsertedPlaceholderFilled` | error.go:152-154 | Assume a well-formed template, a key whose value is another key's placeholder, and an order that puts that key first. The rest of the order must name the other key and every key the template names, with values free of `$`. Then the inserted placeholder is filled later, and the result holds no `$`. |
| `Template.InsertedPlaceholderKept` | error.go:152-154 | Assume a well-formed template that holds a placeholder of a key whose value is a placeholder, and an order that puts that key last. The keys before it must leave it out and have values free of `$`. Then the inserted placeholder occurs in the result. |
| `Template.NamedSprintfAbsentIsExpand` | error.go:151-156 | A format holding none of the keys' placeholders comes back unchanged from both the written substitution, in any key order, and the single-pass one. |
| `Template.ExpandFlatten` | error.go:151-156 | The single-pass substitution fills every placeholder of a well-formed template with its value. There is no condition on the values. |
| `Template.NamedSprintfIsExpand` | error.go:151-156 | On a well-formed template, if no value holds a `$`, the written substitution and the single-pass one agree. |
| `Errors.Params` | error.go:107-119 | `Error()` fills exactly eleven keys: the four request fields, the response, the two status codes and the four payload fields. |
| `Errors.ParamsOfRequest` | error.go:111 | The request text is the value of key `request` and of no other key. |
| `Errors.WithCause` | error.go:120-124 | Without a cause the result is the message. With one, it is the message, then `": "`, then the cause's text. |
| `Errors.ErrorString` | error.go:106-125 | `Error()` is the substituted template. When there is a cause, it is followed by `": "` and the cause's text. |
| `Errors.WithErrCode` | error.go:128-136 | Sets the code and the template that code selects. Sets the cause to the first extra argument only when one is passed. Changes no other field. |
| `Errors.ErrorBody` | error.go:139-149 | Always records the body text. Overwrites the payload exactly when the body decodes, and changes no other field. |
| `Errors.MutatorsKeepConsistent` | error.go:128-149 | `WithErrCode` leaves the template matching the code. `ErrorBody` neither makes nor breaks that match. |
| `Errors.WithErrCodeLastWins` | error.go:128-136 | A second `WithErrCode` overrides the first one's code and template. The first one's cause survives only if the second passes none. |
| `Errors.WithErrCodeIdempotent` | error.go:128-136 | Repeating `WithErrCode` with the same arguments changes nothing. |
| `Errors.ErrorBodyLastWins` | error.go:139-149 | A second `ErrorBody` replaces the response text, and replaces the payload if its body decodes. Otherwise the earlier payload stays. |
| `Errors.ErrorBodyIdempotent` | error.go:139-149 | Repeating `ErrorBody` with the same body changes nothing. |
| `Errors.MutatorsCommute` | error.go:128-149 | `WithErrCode` and `ErrorBody` can be applied in either order with the same result. |
| `Errors.OpenFreeFieldsParams` | error.go:107-119 | If no text field holds `${`, no substituted value does, since the numbers never print a `$`. |
| `Errors.SafeFieldsParams` | error.go:107-119 | If no text field holds a `$`, no substituted value does, since the numbers never print one. |
| `Errors.TemplateOfSpells` | error.go:95 | A template that is empty or selected by some code is well-formed and separated, and names only keys `Error()` fills. Unless the API error code selected it, it does not name the payload's code, type or link. |
| `Errors.RenderFillsTemplate` | error.go:106-125 | The corrected rendering replaces every placeholder of the template with its field's value, whatever the values hold. |
| `Errors.ErrorStringDeterministic` | error.go:106-125 | If the template is empty or selected by some code, and no field holds `${`, `Error()` gives the same text for every key order. That text equals the corrected rendering. A lone `$` in a field, as in a server message about `$gt`, is allowed. The `ErrCode` field plays no part, so reassigning it directly is covered. |
| `Errors.RenderIgnoresApiDetail` | error.go:49-54 | For every template selected by a code other than the API error, the rendered message does not depend on the payload's code, type or link. |
| `Errors.ErrorStringIgnoresApiDetail` | error.go:36-38 | The same holds for `Error()` under any two key orders, if neither the fields nor the new code, type and link hold `${`. |
| `Errors.ErrorOrderDependent` | error.go:106-125 | Take the marshal-request code, a request text of `${method}`, and other fields that hold no `$`. Then filling `request` first and filling it last give different texts. |
| `Errors.MethodInRequestOrderDependent` | error.go:107-124 | A concrete instance. The request text is `${method}` and the other fields hold no `$`. Take the other keys in the order the map literal lists them, and put `request` either first or last. These two orders give different `Error()` texts. |
| `Errors.OrderDependentMessages` | error.go:107-119 | In that case, `request` first gives a message without `$`, and `request` last leaves `${method}` in the message: it occurs there. |
| `Errors.MissingPrimaryKeyScenario` | index_documents_test.go:120-137 | Start from an AddDocuments error on index 6 with status 400 where 202 was expected. Tagging it as an API error and recording a response that decodes to the missing-primary-key payload gives the record the test expects: code 4, the API error template, and no cause. |

## Left out

- The request executor, the HTTP transport and the asynchronous update tracker are not part of this model. They perform network I/O and depend on timing.
- `json.Unmarshal` is the parameter `unmarshal` of `ErrorBody`: a function from the body text to an optional payload. JSON itself is not modelled, so a field missing from the JSON comes back empty only because `unmarshal` says so.
- `fmt.Sprintf("%v")` is modelled only for the two non-string values `Error()` prints, `int` and `[]int`. Strings are inserted as they are.
- `pkg/errors.Wrap` is modelled as text concatenation. Stack traces are not modelled.
- Go strings are byte strings, and `string(body)` converts bytes. Here, strings are sequences of characters.
- Go's `int` is 64 bits wide. Status codes and error codes here are unbounded integers; no arithmetic is done on them.
- `WithErrCode` called with an explicitly empty, non-nil slice would panic on `errs[0]`. The model's empty sequence stands only for "no extra argument".
- Go returns the receiver pointer from `WithErrCode`. The model returns the updated record instead of modelling the heap.
- `RawMessage(MeilisearchApiError)` is not compared character by character with the literal at index_documents_test.go:134. The templates are transcribed from error.go:32-38 as piece lists split at their placeholders.
- Template.NamedSprintfOrderIndependent: on an arbitrary well-formed template, assumes no value holds a `$`, which is stronger than "no value holds `${`". The weaker condition does not suffice there: see `Template.DollarBraceFreeNotEnough`. It does suffice on separated templates, which is all `Error()` uses: see `Template.NamedSprintfSeparatedOrderIndependent`.
- Template.ReplaceAllRemovesKey: assumes the value holds no `$` rather than no `${`, and only for well-formed templates. For arbitrary text the weaker claim fails: in `${k}{k}` with value `$`, a new `${k}` appears.
- Errors.ErrorStringDeterministic: assumes the unexported template is the zero value or the one some code selects (`SelectedBy`). Only `WithErrCode` sets it, so this covers every error the package builds, also after a caller reassigns the exported `ErrCode` field. A template set by code inside the package other than `WithErrCode` is not covered.

## Findings

| source | as written | input that shows it | evidently intended | confidence | as-written member | corrected member |
|---|---|---|---|---|---|---|
| error.go:151-156 | `namedSprintf` runs one `ReplaceAll` per map key, in Go's unspecified map order, and rescans values already inserted | `RequestToString` = `${method}` with `ErrCodeMarshalRequest`, and no `$` in the other fields: `request` first yields the HTTP method in the request slot, `request` last yields `${method}` | each placeholder of the template is replaced once by its own field's value, independent of iteration order | high that the output depends on map order; not executed | `Errors.ErrorOrderDependent` | `Errors.Render` |

=== FILE: codes.dfy ===
/** The error codes of the client and the message template each selects. */
module ErrCodes {
  import opened Strings
  import opened Template

  /** The value of the constant declared at position `iota` of the `ErrCode`
      block: the first is set to 0 explicitly; every later one repeats the
      expression `iota + 1`, so position 1 is worth 2 and no code is worth 1. */
  function ConstBlockValue(iota: nat): int {
    if iota == 0 then 0 else iota + 1
  }

  const ErrCodeUnknown: int := ConstBlockValue(0)
  const ErrCodeMarshalRequest: int := ConstBlockValue(1)
  const ErrCodeResponseUnmarshalBody: int := ConstBlockValue(2)
  const MeilisearchApiError: int := ConstBlockValue(3)
  const MeilisearchApiErrorWithoutMessage: int := ConstBlockValue(4)
  const MeilisearchTimeoutError: int := ConstBlockValue(5)
  const MeilisearchCommunicationError: int := ConstBlockValue(6)

  /** The codes, in declaration order. */
  const AllCodes: seq<int> := [ErrCodeUnknown, ErrCodeMarshalRequest, ErrCodeResponseUnmarshalBody,
    MeilisearchApiError, MeilisearchApiErrorWithoutMessage, MeilisearchTimeoutError,
    MeilisearchCommunicationError]

  /** The numeric value of every code; 1 is skipped, and no two codes share a value. */
  lemma NumericCodes()
    ensures AllCodes == [0, 2, 3, 4, 5, 6, 7]
    ensures forall iota: nat :: ConstBlockValue(iota) != 1
    ensures forall i, j :: 0 <= i < j < |AllCodes| ==> AllCodes[i] != AllCodes[j]
  {
  }

  /** A code with a template of its own (every code but Unknown). */
  predicate HasOwnTemplate(code: int) {
    code in AllCodes[1..]
  }

  /** A code's own template followed by the request context. */
  function WithContext(template: string): string {
    template + " " + RawStringCtx
  }

  /** `ErrCode.rawMessage`: the code's template, a space and the context;
      the context alone for Unknown and for any value that is not a code. */
  function RawMessage(code: int): string
  {
    if code == ErrCodeMarshalRequest then WithContext(RawStringMarshalRequest)
    else if code == ErrCodeResponseUnmarshalBody then WithContext(RawStringResponseUnmarshalBody)
    else if code == MeilisearchApiError then WithContext(RawStringMeilisearchApiError)
    else if code == MeilisearchApiErrorWithoutMessage then WithContext(RawStringMeilisearchApiErrorWithoutMessage)
    else if code == MeilisearchTimeoutError then WithContext(RawStringMeilisearchTimeoutError)
    else if code == MeilisearchCommunicationError then WithContext(RawStringMeilisearchCommunicationError)
    else RawStringCtx
  }

  // The same templates as piece lists.
  const CtxPieces: seq<Piece> := [Text("(path \""), Hole("method"), Text(" "), Hole("endpoint"),
    Text("\" with method \""), Hole("function"), Text("\")")]
  const MarshalRequestPieces: seq<Piece> := [Text("unable to marshal body from request: '"), Hole("request"), Text("'")]
  const ResponseUnmarshalBodyPieces: seq<Piece> := [Text("unable to unmarshal body from response: '"),
    Hole("response"), Text("' status code: "), Hole("statusCode")]
  const ApiErrorWithoutMessagePieces: seq<Piece> := [Text("unaccepted status code found: "), Hole("statusCode"),
    Text(" expected: "), Hole("statusCodeExpected"), Text(", MeilisearchApiError Message: "), Hole("message")]
  /** The placeholders the API error template adds to the one without message. */
  const ApiErrorDetailPieces: seq<Piece> := [Text(", ErrorCode: "), Hole("errorCode"), Text(", ErrorType: "),
    Hole("errorType"), Text(", ErrorLink: "), Hole("errorLink")]
  const ApiErrorPieces: seq<Piece> := ApiErrorWithoutMessagePieces + ApiErrorDetailPieces
  const TimeoutErrorPieces: seq<Piece> := [Text("MeilisearchTimeoutError")]
  const CommunicationErrorPieces: seq<Piece> := [Text("MeilisearchCommunicationError"), Text(" unable to execute request")]

  // Message templates, one per code, and the shared request context, each
  // spelled by its piece list.
  const RawStringCtx := Flatten(CtxPieces)
  const RawStringMarshalRequest := Flatten(MarshalRequestPieces)
  const RawStringResponseUnmarshalBody := Flatten(ResponseUnmarshalBodyPieces)
  const RawStringMeilisearchApiError := Flatten(ApiErrorPieces)
  const RawStringMeilisearchApiErrorWithoutMessage := Flatten(ApiErrorWithoutMessagePieces)
  const RawStringMeilisearchTimeoutError := Flatten(TimeoutErrorPieces)
  const RawStringMeilisearchCommunicationError := Flatten(CommunicationErrorPieces)

  /** The pieces of each code's own template (without the context). */
  function OwnPieces(code: int): seq<Piece>
    requires HasOwnTemplate(code)
  {
    if code == ErrCodeMarshalRequest then MarshalRequestPieces
    else if code == ErrCodeResponseUnmarshalBody then ResponseUnmarshalBodyPieces
    else if code == MeilisearchApiError then ApiErrorPieces
    else if code == MeilisearchApiErrorWithoutMessage then ApiErrorWithoutMessagePieces
    else if code == MeilisearchTimeoutError then TimeoutErrorPieces
    else CommunicationErrorPieces
  }

  /** The pieces of the template a code selects. */
  function Pieces(code: int): seq<Piece> {
    if HasOwnTemplate(code) then OwnPieces(code) + [Text(" ")] + CtxPieces else CtxPieces
  }

  // Each piece list is well-formed: its keys are plain and its texts hold
  // no `$`. The facts are grouped by template.

  lemma ContextKeysPlain()
    ensures Plain("method") && Plain("endpoint") && Plain("function")
  {
  }

  lemma BodyKeysPlain()
    ensures Plain("request") && Plain("response") && Plain("statusCode")
  {
  }

  lemma ApiKeysPlain()
    ensures Plain("statusCodeExpected") && Plain("message")
  {
  }

  lemma ApiDetailKeysPlain()
    ensures Plain("errorCode") && Plain("errorType") && Plain("errorLink")
  {
  }

  lemma ContextTextsLackDollar()
    ensures Lacks("(path \"", '$') && Lacks(" ", '$') && Lacks("\" with method \"", '$') && Lacks("\")", '$')
  {
  }

  lemma MarshalRequestTextsLackDollar()
    ensures Lacks("unable to marshal body from request: '", '$') && Lacks("'", '$')
  {
  }

  lemma ResponseUnmarshalBodyTextsLackDollar()
    ensures Lacks("unable to unmarshal body from response: '", '$') && Lacks("' status code: ", '$')
  {
  }

  lemma ApiErrorTextsLackDollar()
    ensures Lacks("unaccepted status code found: ", '$') && Lacks(" expected: ", '$')
    ensures Lacks(", MeilisearchApiError Message: ", '$')
  {
  }

  lemma ApiErrorDetailTextsLackDollar()
    ensures Lacks(", ErrorCode: ", '$') && Lacks(", ErrorType: ", '$') && Lacks(", ErrorLink: ", '$')
  {
  }

  lemma OtherTextsLackDollar()
    ensures Lacks("MeilisearchTimeoutError", '$') && Lacks("MeilisearchCommunicationError", '$')
    ensures Lacks(" unable to execute request", '$')
  {
  }

  lemma CtxPiecesWellFormed()
    ensures WellFormed(CtxPieces)
  {
    ContextKeysPlain();
    ContextTextsLackDollar();
  }

  lemma MarshalRequestPiecesWellFormed()
    ensures WellFormed(MarshalRequestPieces)
  {
    BodyKeysPlain();
    MarshalRequestTextsLackDollar();
  }

  lemma ResponseUnmarshalBodyPiecesWellFormed()
    ensures WellFormed(ResponseUnmarshalBodyPieces)
  {
    BodyKeysPlain();
    ResponseUnmarshalBodyTextsLackDollar();
  }

  lemma ApiErrorWithoutMessagePiecesWellFormed()
    ensures WellFormed(ApiErrorWithoutMessagePieces)
  {
    BodyKeysPlain();
    ApiKeysPlain();
    ApiErrorTextsLackDollar();
  }

  lemma ApiErrorDetailPiecesWellFormed()
    ensures WellFormed(ApiErrorDetailPieces)
  {
    ApiDetailKeysPlain();
    ApiErrorDetailTextsLackDollar();
  }

  lemma ApiErrorPiecesWellFormed()
    ensures WellFormed(ApiErrorPieces)
  {
    ApiErrorWithoutMessagePiecesWellFormed();
    ApiErrorDetailPiecesWellFormed();
  }

  lemma TimeoutErrorPiecesWellFormed()
    ensures WellFormed(TimeoutErrorPieces)
  {
    OtherTextsLackDollar();
  }

  lemma CommunicationErrorPiecesWellFormed()
    ensures WellFormed(CommunicationErrorPieces)
  {
    OtherTextsLackDollar();
  }

  lemma OwnPiecesWellFormed(code: int)
    requires HasOwnTemplate(code)
    ensures WellFormed(OwnPieces(code))
  {
    if code == ErrCodeMarshalRequest {
      MarshalRequestPiecesWellFormed();
    } else if code == ErrCodeResponseUnmarshalBody {
      ResponseUnmarshalBodyPiecesWellFormed();
    } else if code == MeilisearchApiError {
      ApiErrorPiecesWellFormed();
    } else if code == MeilisearchApiErrorWithoutMessage {
      ApiErrorWithoutMessagePiecesWellFormed();
    } else if code == MeilisearchTimeoutError {
      TimeoutErrorPiecesWellFormed();
    } else {
      CommunicationErrorPiecesWellFormed();
    }
  }

  lemma RawMessageOwn(code: int)
    requires HasOwnTemplate(code)
    ensures RawMessage(code) == WithContext(Flatten(OwnPieces(code)))
  {
    if code <= MeilisearchApiError {
      RawMessageOwnFirst(code);
    } else {
      RawMessageOwnLast(code);
    }
  }

  lemma RawMessageOwnFirst(code: int)
    requires HasOwnTemplate(code) && code <= MeilisearchApiError
    ensures RawMessage(code) == WithContext(Flatten(OwnPieces(code)))
  {
    if code == ErrCodeMarshalRequest {
    } else if code == ErrCodeResponseUnmarshalBody {
    } else {
    }
  }

  lemma RawMessageOwnLast(code: int)
    requires HasOwnTemplate(code) && code > MeilisearchApiError
    ensures RawMessage(code) == WithContext(Flatten(OwnPieces(code)))
  {
    if code == MeilisearchApiErrorWithoutMessage {
    } else if code == MeilisearchTimeoutError {
    } else {
    }
  }

  /** Unknown, and every value that names no code, selects the context alone. */
  lemma RawMessageDefault(code: int)
    requires !HasOwnTemplate(code)
    ensures RawMessage(code) == RawStringCtx
  {
  }

  /** Every template ends with the context, and is the context alone
      exactly when the code has no template of its own. */
  lemma RawMessageEndsWithContext(code: int)
    ensures |RawStringCtx| <= |RawMessage(code)|
    ensures RawMessage(code)[|RawMessage(code)| - |RawStringCtx|..] == RawStringCtx
    ensures RawMessage(code) == RawStringCtx <==> !HasOwnTemplate(code)
  {
    if HasOwnTemplate(code) {
      RawMessageOwn(code);
      var own := Flatten(OwnPieces(code));
      var r := WithContext(own);
      assert r[|r| - |RawStringCtx|..] == RawStringCtx;
      OwnTemplateNonEmpty(code);
    }
  }

  lemma OwnTemplateNonEmpty(code: int)
    requires HasOwnTemplate(code)
    ensures |Flatten(OwnPieces(code))| > 0
  {
    var ps := OwnPieces(code);
    assert ps[0].Text? && |ps[0].text| > 0;
  }

  /** A template, a space and the context, as piece lists. */
  lemma JoinPieces(own: seq<Piece>, ctx: seq<Piece>)
    requires WellFormed(own) && WellFormed(ctx)
    ensures WellFormed(own + [Text(" ")] + ctx)
    ensures Flatten(own + [Text(" ")] + ctx) == Flatten(own) + " " + Flatten(ctx)
  {
    assert PieceOk(Text(" "));
    WellFormedConcat(own, [Text(" ")]);
    WellFormedConcat(own + [Text(" ")], ctx);
    FlattenConcat(own + [Text(" ")], ctx);
    FlattenConcat(own, [Text(" ")]);
  }

  /** Every template is a well-formed piece list: its only `$` signs open
      placeholders of plain keys. */
  lemma RawMessagePieces(code: int)
    ensures WellFormed(Pieces(code))
    ensures RawMessage(code) == Flatten(Pieces(code))
  {
    CtxPiecesWellFormed();
    if HasOwnTemplate(code) {
      OwnPiecesWellFormed(code);
      JoinPieces(OwnPieces(code), CtxPieces);
      RawMessageOwn(code);
    }
  }

  // Every placeholder of every template is followed by text that does not
  // start with `{`, so a value ending in `$` never opens a new placeholder.

  lemma CtxPiecesSeparated()
    ensures Separated(CtxPieces)
  {
    assert Guards(CtxPieces[2]) && Guards(CtxPieces[4]) && Guards(CtxPieces[6]);
  }

  lemma BodyPiecesSeparated()
    ensures Separated(MarshalRequestPieces) && Separated(ResponseUnmarshalBodyPieces)
  {
    assert Guards(MarshalRequestPieces[2]) && Guards(ResponseUnmarshalBodyPieces[2]);
  }

  lemma ApiErrorWithoutMessagePiecesSeparated()
    ensures Separated(ApiErrorWithoutMessagePieces)
  {
    var ps := ApiErrorWithoutMessagePieces;
    assert Guards(ps[2]) && Guards(ps[4]);
  }

  lemma ApiErrorPiecesSeparated()
    ensures Separated(ApiErrorPieces)
  {
    var ds := ApiErrorDetailPieces;
    assert Separated(ds) by {
      assert Guards(ds[2]) && Guards(ds[4]);
    }
    ApiErrorWithoutMessagePiecesSeparated();
    assert Guards(ds[0]);
    SeparatedConcat(ApiErrorWithoutMessagePieces, ds);
  }

  lemma OwnPiecesSeparated(code: int)
    requires HasOwnTemplate(code)
    ensures Separated(OwnPieces(code))
  {
    if code == ErrCodeMarshalRequest || code == ErrCodeResponseUnmarshalBody {
      BodyPiecesSeparated();
    } else if code == MeilisearchApiError {
      ApiErrorPiecesSeparated();
    } else if code == MeilisearchApiErrorWithoutMessage {
      ApiErrorWithoutMessagePiecesSeparated();
    }
  }

  /** A separated template, a space and a separated context stay separated. */
  lemma JoinSeparated(own: seq<Piece>, ctx: seq<Piece>)
    requires Separated(own) && Separated(ctx)
    ensures Separated(own + [Text(" ")] + ctx)
  {
    assert Guards(Text(" "));
    SeparatedConcat(own, [Text(" ")]);
    SeparatedConcat(own + [Text(" ")], ctx);
  }

  /** No template places a placeholder directly before another one or
      before text starting with `{`. */
  lemma PiecesSeparated(code: int)
    ensures Separated(Pieces(code))
  {
    CtxPiecesSeparated();
    if HasOwnTemplate(code) {
      OwnPiecesSeparated(code);
      JoinSeparated(OwnPieces(code), CtxPieces);
    }
  }

  // The placeholders each template holds.

  /** Every key a template may name: the keys of the map `Error()` fills. */
  const TemplateKeys: set<string> := {"endpoint", "method", "function", "request", "response",
    "statusCodeExpected", "statusCode", "message", "errorCode", "errorType", "errorLink"}

  /** The API payload keys only the full API error template names. */
  const ApiDetailKeys: set<string> := {"errorCode", "errorType", "errorLink"}

  lemma CtxHoleKeys()
    ensures HoleKeys(CtxPieces) == {"method", "endpoint", "function"}
  {
    assert CtxPieces[1].key == "method" && CtxPieces[3].key == "endpoint" && CtxPieces[5].key == "function";
  }

  lemma MarshalRequestHoleKeys()
    ensures HoleKeys(MarshalRequestPieces) == {"request"}
  {
    assert MarshalRequestPieces[1].key == "request";
  }

  lemma ResponseUnmarshalBodyHoleKeys()
    ensures HoleKeys(ResponseUnmarshalBodyPieces) == {"response", "statusCode"}
  {
    assert ResponseUnmarshalBodyPieces[1].key == "response" && ResponseUnmarshalBodyPieces[3].key == "statusCode";
  }

  lemma ApiErrorWithoutMessageHoleKeys()
    ensures HoleKeys(ApiErrorWithoutMessagePieces) == {"statusCode", "statusCodeExpected", "message"}
  {
    var ps := ApiErrorWithoutMessagePieces;
    assert ps[1].key == "statusCode" && ps[3].key == "statusCodeExpected" && ps[5].key == "message";
  }

  lemma ApiErrorDetailHoleKeys()
    ensures HoleKeys(ApiErrorDetailPieces) == ApiDetailKeys
  {
    var ps := ApiErrorDetailPieces;
    assert ps[1].key == "errorCode" && ps[3].key == "errorType" && ps[5].key == "errorLink";
  }

  lemma OtherHoleKeys()
    ensures HoleKeys(TimeoutErrorPieces) == {} && HoleKeys(CommunicationErrorPieces) == {}
    ensures HoleKeys([Text(" ")]) == {}
  {
  }

  lemma OwnHoleKeys(code: int)
    requires HasOwnTemplate(code)
    ensures HoleKeys(OwnPieces(code)) <= TemplateKeys
    ensures code != MeilisearchApiError ==> HoleKeys(OwnPieces(code)) !! ApiDetailKeys
  {
    if code == ErrCodeMarshalRequest {
      MarshalRequestHoleKeys();
    } else if code == ErrCodeResponseUnmarshalBody {
      ResponseUnmarshalBodyHoleKeys();
    } else if code == MeilisearchApiError {
      ApiErrorWithoutMessageHoleKeys();
      ApiErrorDetailHoleKeys();
      HoleKeysConcat(ApiErrorWithoutMessagePieces, ApiErrorDetailPieces);
    } else if code == MeilisearchApiErrorWithoutMessage {
      ApiErrorWithoutMessageHoleKeys();
    } else {
      OtherHoleKeys();
    }
  }

  /** Every placeholder of every template names a key `Error()` fills, and
      only the full API error template names the error code, type and link. */
  lemma PiecesHoleKeys(code: int)
    ensures HoleKeys(Pieces(code)) <= TemplateKeys
    ensures code != MeilisearchApiError ==> HoleKeys(Pieces(code)) !! ApiDetailKeys
  {
    CtxHoleKeys();
    if HasOwnTemplate(code) {
      var own := OwnPieces(code);
      OwnHoleKeys(code);
      OtherHoleKeys();
      HoleKeysConcat(own, [Text(" ")]);
      HoleKeysConcat(own + [Text(" ")], CtxPieces);
    }
  }
}

=== FILE: errors.dfy ===
/** The library's unified `Error` value: its fields, the message `Error()`
    renders from them, and the two mutators `WithErrCode` and `ErrorBody`.

    Go's pointer receivers become functional updates: a mutator returns the
    updated record. Go's map iteration order in `Error()` is the explicit
    parameter `order`. */
module Errors {
  import opened Wrappers
  import opened Strings
  import opened Format
  import opened Template
  import opened ErrCodes

  /** `meilisearchApiMessage`: the error payload the server sends. */
  datatype ApiMessage = ApiMessage(message: string, errorCode: string, errorType: string, errorLink: string)

  /** An underlying Go `error`, seen only through the text its own `Error()`
      returns. */
  datatype Cause = Cause(text: string)

  /** The `Error` record. `httpMethod` and `functionName` are the Go fields
      `Method` and `Function`; `rawMessage` is the unexported template. */
  datatype Error = Error(
    endpoint: string,
    httpMethod: string,
    functionName: string,
    requestToString: string,
    responseToString: string,
    apiMessage: ApiMessage,
    statusCode: int,
    statusCodeExpected: seq<int>,
    rawMessage: string,
    originError: Option<Cause>,
    errCode: int)

  /** The map `Error()` hands to `namedSprintf`, each value printed with `%v`. */
  function Params(e: Error): (r: map<string, string>)
    ensures r.Keys == TemplateKeys
  {
    map[
      "endpoint" := e.endpoint,
      "method" := e.httpMethod,
      "function" := e.functionName,
      "response" := e.responseToString,
      "statusCodeExpected" := IntsToString(e.statusCodeExpected),
      "statusCode" := IntToString(e.statusCode),
      "message" := e.apiMessage.message,
      "errorCode" := e.apiMessage.errorCode,
      "errorType" := e.apiMessage.errorType,
      "errorLink" := e.apiMessage.errorLink,
      "request" := e.requestToString
    ]
  }

  /** The substituted template, with the map's keys visited in `order`. */
  function Message(e: Error, order: seq<string>): string
    requires Enumerates(order, TemplateKeys)
  {
    NamedSprintf(e.rawMessage, Params(e), order)
  }

  /** `errors.Wrap(cause, message).Error()` when there is a cause; the
      message itself otherwise. */
  function WithCause(message: string, cause: Option<Cause>): (r: string)
    ensures |message| <= |r| && r[..|message|] == message
    ensures cause.None? ==> r == message
    ensures cause.Some? ==> r[|message|..] == ": " + cause.value.text
  {
    if cause.Some? then message + ": " + cause.value.text else message
  }

  /** `Error.Error()` as written: the template filled by one `ReplaceAll` per
      key in `order`, then the cause appended after `": "` when present. */
  function ErrorString(e: Error, order: seq<string>): (r: string)
    requires Enumerates(order, TemplateKeys)
    ensures e.originError.None? ==> r == Message(e, order)
    ensures e.originError.Some? ==> r == Message(e, order) + ": " + e.originError.value.text
  {
    WithCause(Message(e, order), e.originError)
  }

  /** `Error()` as evidently intended: every placeholder of the template
      replaced by its field's value in one left-to-right pass. */
  function Render(e: Error): string {
    WithCause(Expand(e.rawMessage, Params(e)), e.originError)
  }

  /** `WithErrCode(code, errs...)`. `errs` lists the extra arguments; an
      absent argument list is the empty sequence, and `None` is a nil error. */
  function WithErrCode(e: Error, code: int, errs: seq<Option<Cause>>): (r: Error)
    ensures r.errCode == code && r.rawMessage == RawMessage(code)
    ensures |errs| > 0 ==> r.originError == errs[0]
    ensures |errs| == 0 ==> r.originError == e.originError
    ensures r.(errCode := e.errCode, rawMessage := e.rawMessage, originError := e.originError) == e
  {
    var e1 := if |errs| > 0 then e.(originError := errs[0]) else e;
    e1.(rawMessage := RawMessage(code), errCode := code)
  }

  /** `ErrorBody(body)`, with `json.Unmarshal` as the parameter `unmarshal`:
      `None` when the body does not decode, otherwise the decoded payload
      (fields missing from the JSON already empty). */
  function ErrorBody(e: Error, body: string, unmarshal: string -> Option<ApiMessage>): (r: Error)
    ensures r.responseToString == body
    ensures unmarshal(body).Some? ==> r.apiMessage == unmarshal(body).value
    ensures unmarshal(body).None? ==> r.apiMessage == e.apiMessage
    ensures r.(responseToString := e.responseToString, apiMessage := e.apiMessage) == e
  {
    var e1 := e.(responseToString := body);
    var msg := unmarshal(body);
    if msg.Some? then
      e1.(apiMessage := ApiMessage(msg.value.message, msg.value.errorCode, msg.value.errorType, msg.value.errorLink))
    else e1
  }

  // ---------------------------------------------------------------------
  // The mutators
  // ---------------------------------------------------------------------

  /** The unexported template is the zero value or the one `code` selects.
      Only `WithErrCode` sets it, so every error's template is selected by
      some code, whatever the exported `ErrCode` field was set to later. */
  predicate SelectedBy(e: Error, code: int) {
    e.rawMessage == "" || e.rawMessage == RawMessage(code)
  }

  /** The template is the one the error's own code selects, as `WithErrCode`
      leaves it. */
  predicate Consistent(e: Error) {
    SelectedBy(e, e.errCode)
  }

  /** Both mutators keep an error consistent, and `WithErrCode` makes any
      error consistent. */
  lemma MutatorsKeepConsistent(e: Error, code: int, errs: seq<Option<Cause>>, body: string,
                               unmarshal: string -> Option<ApiMessage>)
    ensures Consistent(WithErrCode(e, code, errs))
    ensures Consistent(e) <==> Consistent(ErrorBody(e, body, unmarshal))
  {
  }

  /** A second `WithErrCode` wins: its code and template replace the first
      one's, and the first one's cause survives only when the second passes
      none. */
  lemma WithErrCodeLastWins(e: Error, c1: int, errs1: seq<Option<Cause>>, c2: int, errs2: seq<Option<Cause>>)
    ensures WithErrCode(WithErrCode(e, c1, errs1), c2, errs2)
         == WithErrCode(e, c2, if |errs2| > 0 then errs2 else errs1)
  {
  }

  /** Applying `WithErrCode` twice with the same arguments is applying it once. */
  lemma WithErrCodeIdempotent(e: Error, code: int, errs: seq<Option<Cause>>)
    ensures WithErrCode(WithErrCode(e, code, errs), code, errs) == WithErrCode(e, code, errs)
  {
    WithErrCodeLastWins(e, code, errs, code, errs);
  }

  /** A second `ErrorBody` replaces the response text, and replaces the
      payload when its body decodes; otherwise the first one's payload stays. */
  lemma ErrorBodyLastWins(e: Error, b1: string, b2: string, unmarshal: string -> Option<ApiMessage>)
    ensures unmarshal(b2).Some? ==> ErrorBody(ErrorBody(e, b1, unmarshal), b2, unmarshal) == ErrorBody(e, b2, unmarshal)
    ensures unmarshal(b2).None? ==>
              ErrorBody(ErrorBody(e, b1, unmarshal), b2, unmarshal) == ErrorBody(e, b1, unmarshal).(responseToString := b2)
  {
  }

  /** Applying `ErrorBody` twice with the same body is applying it once. */
  lemma ErrorBodyIdempotent(e: Error, body: string, unmarshal: string -> Option<ApiMessage>)
    ensures ErrorBody(ErrorBody(e, body, unmarshal), body, unmarshal) == ErrorBody(e, body, unmarshal)
  {
    ErrorBodyLastWins(e, body, body, unmarshal);
  }

  /** The two mutators touch disjoint fields, so their order does not matter. */
  lemma MutatorsCommute(e: Error, code: int, errs: seq<Option<Cause>>, body: string,
                        unmarshal: string -> Option<ApiMessage>)
    ensures ErrorBody(WithErrCode(e, code, errs), body, unmarshal)
         == WithErrCode(ErrorBody(e, body, unmarshal), code, errs)
  {
  }

  // ---------------------------------------------------------------------
  // Rendering
  // ---------------------------------------------------------------------

  /** No text field of the error holds a `$`. */
  predicate SafeFields(e: Error) {
    && Lacks(e.endpoint, '$') && Lacks(e.httpMethod, '$') && Lacks(e.functionName, '$')
    && Lacks(e.requestToString, '$') && Lacks(e.responseToString, '$')
    && Lacks(e.apiMessage.message, '$') && Lacks(e.apiMessage.errorCode, '$')
    && Lacks(e.apiMessage.errorType, '$') && Lacks(e.apiMessage.errorLink, '$')
  }

  lemma TemplateKeysPlain()
    ensures forall k :: k in TemplateKeys ==> Plain(k)
  {
    ContextKeysPlain();
    BodyKeysPlain();
    ApiKeysPlain();
    ApiDetailKeysPlain();
  }

  /** With safe fields, no value `Error()` substitutes holds a `$`. */
  lemma SafeFieldsParams(e: Error)
    requires SafeFields(e)
    ensures SafeParams(Params(e))
  {
    TemplateKeysPlain();
  }

  /** No text field of the error holds `${`; a lone `$` is allowed. */
  predicate OpenFreeFields(e: Error) {
    && !Occurs(e.endpoint, "${") && !Occurs(e.httpMethod, "${") && !Occurs(e.functionName, "${")
    && !Occurs(e.requestToString, "${") && !Occurs(e.responseToString, "${")
    && !Occurs(e.apiMessage.message, "${") && !Occurs(e.apiMessage.errorCode, "${")
    && !Occurs(e.apiMessage.errorType, "${") && !Occurs(e.apiMessage.errorLink, "${")
  }

  /** With no `${` in any text field, no substituted value holds `${`,
      since the numbers never print a `$`. */
  lemma OpenFreeFieldsParams(e: Error)
    requires OpenFreeFields(e)
    ensures OpenFreeParams(Params(e))
  {
    TemplateKeysPlain();
    LacksDollarNoOpen(IntToString(e.statusCode));
    LacksDollarNoOpen(IntsToString(e.statusCodeExpected));
  }

  /** The piece list the template selected by `code` spells. */
  function TemplateOf(e: Error, code: int): seq<Piece> {
    if e.rawMessage == "" then [] else Pieces(code)
  }

  lemma TemplateOfSpells(e: Error, code: int)
    requires SelectedBy(e, code)
    ensures WellFormed(TemplateOf(e, code)) && Flatten(TemplateOf(e, code)) == e.rawMessage
    ensures Separated(TemplateOf(e, code))
    ensures HoleKeys(TemplateOf(e, code)) <= TemplateKeys
    ensures code != MeilisearchApiError ==> HoleKeys(TemplateOf(e, code)) !! ApiDetailKeys
  {
    if e.rawMessage != "" {
      RawMessagePieces(code);
      PiecesSeparated(code);
      PiecesHoleKeys(code);
    }
  }

  /** `Render` fills every placeholder of the template with its field's
      value, whatever the values hold. */
  lemma RenderFillsTemplate(e: Error, code: int)
    requires SelectedBy(e, code)
    ensures Render(e) == WithCause(Flatten(FillAll(TemplateOf(e, code), Params(e))), e.originError)
  {
    TemplateOfSpells(e, code);
    ExpandFlatten(TemplateOf(e, code), Params(e));
  }

  /** With no `${` in any field, `Error()` gives the same text for every key
      order, and that text is `Render`'s: every template is separated, so
      no value can spell a new placeholder. Only the template matters, not
      the `ErrCode` field, which callers may reassign. */
  lemma ErrorStringDeterministic(e: Error, code: int, o1: seq<string>, o2: seq<string>)
    requires SelectedBy(e, code) && OpenFreeFields(e)
    requires Enumerates(o1, TemplateKeys) && Enumerates(o2, TemplateKeys)
    ensures ErrorString(e, o1) == ErrorString(e, o2)
    ensures ErrorString(e, o1) == Render(e)
  {
    TemplateOfSpells(e, code);
    OpenFreeFieldsParams(e);
    NamedSprintfSeparatedOrderIndependent(TemplateOf(e, code), Params(e), o1, o2);
    NamedSprintfSeparated(TemplateOf(e, code), Params(e), o1);
  }

  /** The error with its payload's code, type and link replaced. */
  function WithApiDetail(e: Error, errorCode: string, errorType: string, errorLink: string): Error {
    e.(apiMessage := e.apiMessage.(errorCode := errorCode, errorType := errorType, errorLink := errorLink))
  }

  /** Only the full API error template names the payload's code, type and
      link; under every other template `Render` does not depend on them. */
  lemma RenderIgnoresApiDetail(e: Error, code: int, errorCode: string, errorType: string, errorLink: string)
    requires SelectedBy(e, code) && code != MeilisearchApiError
    ensures Render(e) == Render(WithApiDetail(e, errorCode, errorType, errorLink))
  {
    var e2 := WithApiDetail(e, errorCode, errorType, errorLink);
    TemplateOfSpells(e, code);
    RenderFillsTemplate(e, code);
    RenderFillsTemplate(e2, code);
    FillKeysAgree(TemplateOf(e, code), Params(e), Params(e2), TemplateKeys);
  }

  /** The same for `Error()` as written, under the side condition that makes
      it deterministic, for any two key orders. */
  lemma ErrorStringIgnoresApiDetail(e: Error, code: int, errorCode: string, errorType: string, errorLink: string,
                                    o1: seq<string>, o2: seq<string>)
    requires SelectedBy(e, code) && code != MeilisearchApiError
    requires OpenFreeFields(e) && !Occurs(errorCode, "${") && !Occurs(errorType, "${") && !Occurs(errorLink, "${")
    requires Enumerates(o1, TemplateKeys) && Enumerates(o2, TemplateKeys)
    ensures ErrorString(e, o1) == ErrorString(WithApiDetail(e, errorCode, errorType, errorLink), o2)
  {
    var e2 := WithApiDetail(e, errorCode, errorType, errorLink);
    ErrorStringDeterministic(e, code, o1, o1);
    ErrorStringDeterministic(e2, code, o2, o2);
    RenderIgnoresApiDetail(e, code, errorCode, errorType, errorLink);
  }

  // ---------------------------------------------------------------------
  // A field holding a placeholder makes `Error()` depend on the key order
  // ---------------------------------------------------------------------

  /** A request body that reads `${method}`, under the marshal-request code:
      when `request` is replaced first, the inserted `${method}` is then
      replaced by the HTTP method; when it is replaced last, `${method}`
      stays in the message. The two texts differ for every such error. */
  lemma ErrorOrderDependent(e: Error, rest: seq<string>)
    requires e.errCode == ErrCodeMarshalRequest && e.rawMessage == RawMessage(ErrCodeMarshalRequest)
    requires e.requestToString == Placeholder("method")
    requires SafeFields(e.(requestToString := ""))
    requires Enumerates(["request"] + rest, TemplateKeys) && Enumerates(rest + ["request"], TemplateKeys)
    ensures ErrorString(e, ["request"] + rest) != ErrorString(e, rest + ["request"])
  {
    var first := Message(e, ["request"] + rest);
    var last := Message(e, rest + ["request"]);
    OrderDependentMessages(e, rest);
    PlaceholderNeedsDollar(first, "method");
    WithCauseKeepsApart(first, last, e.originError);
  }

  /** Appending the same cause keeps two different messages apart. */
  lemma WithCauseKeepsApart(a: string, b: string, cause: Option<Cause>)
    requires a != b
    ensures WithCause(a, cause) != WithCause(b, cause)
  {
    var ra, rb := WithCause(a, cause), WithCause(b, cause);
    if cause.Some? && |a| == |b| {
      assert ra[..|a|] == a && rb[..|b|] == b;
    }
  }

  /** The keys of `Error()`'s map other than `request`, in the order the
      map literal lists them. `KeysButRequestCover` shows they are
      `TemplateKeys` without `request`, and `Params` shows its keys are
      `TemplateKeys`. */
  const KeysButRequest: seq<string> := ["endpoint", "method", "function", "response",
    "statusCodeExpected", "statusCode", "message", "errorCode", "errorType", "errorLink"]

  /** A marshal-request error whose request body reads `${method}`. */
  function MethodInRequest(endpoint: string, httpMethod: string, functionName: string): Error {
    Error(endpoint, httpMethod, functionName, Placeholder("method"), "", ApiMessage("", "", "", ""),
          0, [], RawMessage(ErrCodeMarshalRequest), None, ErrCodeMarshalRequest)
  }

  lemma KeysButRequestEnumerate()
    ensures Enumerates(["request"] + KeysButRequest, TemplateKeys)
    ensures Enumerates(KeysButRequest + ["request"], TemplateKeys)
  {
    KeysButRequestDistinct();
    KeysButRequestCover();
    EnumeratesAround("request", KeysButRequest, TemplateKeys);
  }

  lemma KeysButRequestDistinct()
    ensures forall i, j | 0 <= i < j < |KeysButRequest| :: KeysButRequest[i] != KeysButRequest[j]
    ensures "request" !in KeysButRequest
  {
  }

  lemma KeysButRequestCover()
    ensures forall i | 0 <= i < |KeysButRequest| :: KeysButRequest[i] in TemplateKeys
    ensures forall k | k in TemplateKeys :: k in KeysButRequest || k == "request"
  {
  }

  /** The counterexample with both orders spelled out: for any request
      context free of `$`, filling `request` first and filling it last give
      two different texts. */
  lemma MethodInRequestOrderDependent(endpoint: string, httpMethod: string, functionName: string)
    requires Lacks(endpoint, '$') && Lacks(httpMethod, '$') && Lacks(functionName, '$')
    ensures Enumerates(["request"] + KeysButRequest, TemplateKeys)
    ensures Enumerates(KeysButRequest + ["request"], TemplateKeys)
    ensures ErrorString(MethodInRequest(endpoint, httpMethod, functionName), ["request"] + KeysButRequest)
         != ErrorString(MethodInRequest(endpoint, httpMethod, functionName), KeysButRequest + ["request"])
  {
    KeysButRequestEnumerate();
    var e := MethodInRequest(endpoint, httpMethod, functionName);
    assert SafeFields(e.(requestToString := ""));
    ErrorOrderDependent(e, KeysButRequest);
  }

  /** The message with `request` first has no `$`; the one with `request`
      last still holds `${method}`. */
  lemma OrderDependentMessages(e: Error, rest: seq<string>)
    requires e.errCode == ErrCodeMarshalRequest && e.rawMessage == RawMessage(ErrCodeMarshalRequest)
    requires e.requestToString == Placeholder("method")
    requires SafeFields(e.(requestToString := ""))
    requires Enumerates(["request"] + rest, TemplateKeys) && Enumerates(rest + ["request"], TemplateKeys)
    ensures Lacks(Message(e, ["request"] + rest), '$')
    ensures Occurs(Message(e, rest + ["request"]), Placeholder("method"))
  {
    var ps := Pieces(ErrCodeMarshalRequest);
    var p, safe := Params(e), Params(e.(requestToString := ""));
    MarshalRequestTemplate();
    RestAgrees(e, rest);
    InsertedPlaceholderFilled(ps, p, safe, "request", "method", rest);
    InsertedPlaceholderKept(ps, p, safe, "request", "method", rest, 1);
  }

  /** The keys after `request` leave it out, cover the rest of the keys,
      and see the same values whatever the request text. */
  lemma RestAgrees(e: Error, rest: seq<string>)
    requires e.requestToString == Placeholder("method")
    requires SafeFields(e.(requestToString := ""))
    requires Enumerates(["request"] + rest, TemplateKeys)
    ensures KeySet(rest) == TemplateKeys - {"request"} && "method" in KeySet(rest)
    ensures Plain("request") && Plain("method")
    ensures "request" in Params(e) && Params(e)["request"] == Placeholder("method")
    ensures SafeParams(Params(e.(requestToString := "")))
    ensures forall i :: 0 <= i < |rest| ==> rest[i] in Params(e) && rest[i] in Params(e.(requestToString := ""))
                                             && Params(e)[rest[i]] == Params(e.(requestToString := ""))[rest[i]]
  {
    EnumeratesTail("request", rest, TemplateKeys);
    SafeFieldsParams(e.(requestToString := ""));
    TemplateKeysPlain();
    ParamsOfRequest(e, "");
    assert "method" in TemplateKeys - {"request"};
    forall i | 0 <= i < |rest| ensures rest[i] in KeySet(rest) { }
  }

  /** The template of the marshal-request code as a piece list. */
  lemma MarshalRequestTemplate()
    ensures WellFormed(Pieces(ErrCodeMarshalRequest))
    ensures Flatten(Pieces(ErrCodeMarshalRequest)) == RawMessage(ErrCodeMarshalRequest)
    ensures HoleKeys(Pieces(ErrCodeMarshalRequest)) <= TemplateKeys
    ensures Pieces(ErrCodeMarshalRequest)[1] == Hole("request")
  {
    RawMessagePieces(ErrCodeMarshalRequest);
    PiecesHoleKeys(ErrCodeMarshalRequest);
  }

  /** The request text is the value of key `request` and of no other key. */
  lemma ParamsOfRequest(e: Error, request: string)
    ensures Params(e.(requestToString := request)) == Params(e)["request" := request]
  {
  }

  // ---------------------------------------------------------------------
  // The expected error of the missing-primary-key integration test
  // ---------------------------------------------------------------------

  /** The payload the server returns when no primary key can be inferred. */
  const MissingPrimaryKeyPayload := ApiMessage("schema cannot be built without a primary key",
    "missing_primary_key", "invalid_request_error", "https://docs.meilisearch.com/errors#missing_primary_key")

  /** The error an `AddDocuments` call on index "6" starts from: the request
      context and the status codes, nothing else. */
  function BlankAddDocumentsError(request: string): Error {
    Error("/indexes/6/documents", "POST", "AddDocuments", request, "",
          ApiMessage("", "", "", ""), 400, [202], "", None, ErrCodeUnknown)
  }

  /** An `AddDocuments` error on index "6" answered with status 400 where 202
      was expected: tagged as an API error with no cause and given the
      response body, it is the record the test expects, with code 4 and the
      API error template. */
  lemma MissingPrimaryKeyScenario(request: string, response: string, unmarshal: string -> Option<ApiMessage>)
    requires unmarshal(response) == Some(MissingPrimaryKeyPayload)
    ensures ErrorBody(WithErrCode(BlankAddDocumentsError(request), MeilisearchApiError, []), response, unmarshal)
         == Error("/indexes/6/documents", "POST", "AddDocuments", request, response,
                  MissingPrimaryKeyPayload, 400, [202], RawMessage(4), None, 4)
  {
  }
}

=== FILE: format.dfy ===
/** The two uses of `fmt.Sprintf("%v", …)` that matter for error rendering:
    a Go `int` and a Go `[]int`, both printed in decimal. */
module Format {
  import opened Strings

  /** A decimal digit character. */
  predicate IsDigit(c: char) {
    '0' <= c <= '9'
  }

  predicate AllDigits(s: string) {
    forall i :: 0 <= i < |s| ==> IsDigit(s[i])
  }

  /** The number a string of decimal digits denotes (most significant first). */
  function DigitsValue(s: string): nat
    requires AllDigits(s)
  {
    if s == [] then 0
    else DigitsValue(s[..|s| - 1]) * 10 + (s[|s| - 1] - '0') as nat
  }

  function DigitChar(d: nat): (c: char)
    requires d < 10
    ensures IsDigit(c) && (c - '0') as nat == d
  {
    "0123456789"[d]
  }

  /** `%v` of a non-negative integer: its shortest decimal spelling. */
  function NatToString(n: nat): (r: string)
    ensures |r| > 0 && AllDigits(r)
    ensures |r| > 1 ==> r[0] != '0'
    ensures DigitsValue(r) == n
  {
    if n < 10 then [DigitChar(n)]
    else
      var r := NatToString(n / 10) + [DigitChar(n % 10)];
      assert r[..|r| - 1] == NatToString(n / 10);
      r
  }

  /** `%v` of a Go `int`: a minus sign before the digits of a negative number. */
  function IntToString(n: int): (r: string)
    ensures |r| > 0
    ensures n < 0 <==> r[0] == '-'
    ensures n < 0 ==> AllDigits(r[1..]) && DigitsValue(r[1..]) == -n
    ensures n >= 0 ==> AllDigits(r) && DigitsValue(r) == n
    ensures n >= 0 && |r| > 1 ==> r[0] != '0'
    ensures n < 0 ==> |r| > 1 && r[1] != '0'
    ensures Lacks(r, '$') && Lacks(r, ' ')
  {
    if n < 0 then
      var d := NatToString(-n);
      assert d[0] != '0' by {
        if |d| == 1 {
          assert d[..0] == [];
        }
      }
      "-" + d
    else NatToString(n)
  }

  /** Distinct ints print differently, so `%v` loses nothing. */
  lemma IntToStringInjective(a: int, b: int)
    requires IntToString(a) == IntToString(b)
    ensures a == b
  {
    var r := IntToString(a);
    if a < 0 {
      assert DigitsValue(r[1..]) == -a == -b;
    }
  }

  /** The elements of `xs` in decimal, separated by single spaces. */
  function JoinInts(xs: seq<int>): (r: string)
    ensures Lacks(r, '$')
    ensures xs == [] <==> r == []
  {
    if xs == [] then ""
    else if |xs| == 1 then IntToString(xs[0])
    else IntToString(xs[0]) + " " + JoinInts(xs[1..])
  }

  /** Joining two non-empty slices one after the other puts one space between
      their texts. With the single-element case this fixes `JoinInts`
      completely: each element's decimal text, in order, between spaces. */
  lemma {:induction false} JoinIntsConcat(xs: seq<int>, ys: seq<int>)
    requires xs != [] && ys != []
    ensures JoinInts(xs + ys) == JoinInts(xs) + " " + JoinInts(ys)
  {
    if |xs| == 1 {
      assert (xs + ys)[1..] == ys;
    } else {
      assert (xs + ys)[1..] == xs[1..] + ys;
      JoinIntsConcat(xs[1..], ys);
    }
  }

  /** The elements' texts hold no space, so the spaces of the joined text are
      exactly the separators: one fewer than the elements. */
  lemma {:induction false} JoinIntsSpaces(xs: seq<int>)
    ensures |xs| > 0 ==> CountChar(JoinInts(xs), ' ') == |xs| - 1
  {
    if |xs| > 1 {
      var h := IntToString(xs[0]);
      CountCharLacks(h, ' ');
      CountCharConcat(h, " ", ' ');
      CountCharConcat(h + " ", JoinInts(xs[1..]), ' ');
      JoinIntsSpaces(xs[1..]);
    } else if |xs| == 1 {
      CountCharLacks(IntToString(xs[0]), ' ');
    }
  }

  /** The number of times `c` occurs in `s`. */
  function CountChar(s: string, c: char): nat {
    if s == [] then 0 else (if s[0] == c then 1 else 0) + CountChar(s[1..], c)
  }

  lemma {:induction false} CountCharLacks(s: string, c: char)
    requires Lacks(s, c)
    ensures CountChar(s, c) == 0
  {
    if s != [] {
      CountCharLacks(s[1..], c);
    }
  }

  lemma {:induction false} CountCharConcat(s: string, t: string, c: char)
    ensures CountChar(s + t, c) == CountChar(s, c) + CountChar(t, c)
  {
    if s != [] {
      assert (s + t)[1..] == s[1..] + t;
      CountCharConcat(s[1..], t, c);
    } else {
      assert s + t == t;
    }
  }

  /** `%v` of a Go `[]int` (nil or not): `[2 0 2]`. */
  function IntsToString(xs: seq<int>): (r: string)
    ensures |r| >= 2 && r[0] == '[' && r[|r| - 1] == ']'
    ensures Lacks(r, '$')
    ensures xs == [] <==> r == "[]"
    ensures |xs| == 1 ==> r == "[" + IntToString(xs[0]) + "]"
  {
    "[" + JoinInts(xs) + "]"
  }

  /** The text of a concatenation is the texts of the halves, brackets
      dropped, joined by a space: `%v` of `[2 0]` and `[2]` gives `[2 0 2]`. */
  lemma IntsToStringConcat(xs: seq<int>, ys: seq<int>)
    requires xs != [] && ys != []
    ensures IntsToString(xs + ys)
         == "[" + JoinInts(xs) + " " + JoinInts(ys) + "]"
  {
    JoinIntsConcat(xs, ys);
  }
}

=== FILE: strings.dfy ===
/** Go's `strings.ReplaceAll`, on strings as sequences of characters
    (one character per rune). */
module Strings {

  /** No character of `s` is `c`. */
  predicate Lacks(s: string, c: char) {
    forall i | 0 <= i < |s| :: s[i] != c
  }

  /** `pat` occurs in `s` starting at index `i`. */
  predicate OccursAt(s: string, pat: string, i: nat) {
    i + |pat| <= |s| && s[i..i + |pat|] == pat
  }

  /** `pat` occurs somewhere in `s`. */
  predicate Occurs(s: string, pat: string) {
    exists i: nat | i <= |s| :: OccursAt(s, pat, i)
  }

  /** Go's `ReplaceAll(s, "", rep)`: `rep` before every character and at the end. */
  function InsertEverywhere(s: string, rep: string): (r: string)
    ensures |r| == |s| + (|s| + 1) * |rep|
    ensures rep == [] ==> r == s
  {
    if s == [] then rep
    else rep + [s[0]] + InsertEverywhere(s[1..], rep)
  }

  /** Every non-overlapping occurrence of `pat` in `s`, scanning left to
      right, replaced by `rep`. Like Go, the result is `s` itself when
      `pat == rep`. */
  function ReplaceAll(s: string, pat: string, rep: string): (r: string)
    ensures pat == rep ==> r == s
    decreases |s|
  {
    if |pat| == 0 then InsertEverywhere(s, rep)
    else if |s| < |pat| then s
    else if s[..|pat|] == pat then rep + ReplaceAll(s[|pat|..], pat, rep)
    else [s[0]] + ReplaceAll(s[1..], pat, rep)
  }

  /** Like Go, the result is `s` itself when `pat` does not occur. */
  lemma {:induction false} ReplaceAllAbsent(s: string, pat: string, rep: string)
    requires !Occurs(s, pat)
    ensures ReplaceAll(s, pat, rep) == s
    decreases |s|
  {
    assert |pat| > 0 by {
      assert |pat| == 0 ==> OccursAt(s, pat, 0);
    }
    if |s| >= |pat| {
      assert !OccursAt(s, pat, 0);
      forall i: nat | i <= |s[1..]| ensures !OccursAt(s[1..], pat, i) {
        assert !OccursAt(s, pat, i + 1);
        if i + |pat| <= |s[1..]| {
          assert s[1..][i..i + |pat|] == s[i + 1..i + 1 + |pat|];
        }
      }
      ReplaceAllAbsent(s[1..], pat, rep);
      assert [s[0]] + s[1..] == s;
    }
  }

  /** A prefix at which no occurrence of `pat` starts is copied unchanged. */
  lemma {:induction false} ReplaceAllSkipsUnmatched(t: string, x: string, pat: string, rep: string)
    requires |pat| > 0
    requires forall i | 0 <= i < |t| :: !OccursAt(t + x, pat, i)
    ensures ReplaceAll(t + x, pat, rep) == t + ReplaceAll(x, pat, rep)
    decreases |t|
  {
    var s := t + x;
    if t == [] {
      assert s == x;
    } else if |s| < |pat| {
      assert ReplaceAll(s, pat, rep) == s;
      assert ReplaceAll(x, pat, rep) == x;
    } else {
      var rx := ReplaceAll(x, pat, rep);
      calc {
        ReplaceAll(s, pat, rep);
        { assert !OccursAt(s, pat, 0);
          ReplaceAllKeepsFirst(s, pat, rep); }
        [t[0]] + ReplaceAll(s[1..], pat, rep);
        { assert s[1..] == t[1..] + x; }
        [t[0]] + ReplaceAll(t[1..] + x, pat, rep);
        { UnmatchedTail(t, x, pat);
          ReplaceAllSkipsUnmatched(t[1..], x, pat, rep); }
        [t[0]] + (t[1..] + rx);
        { assert [t[0]] + t[1..] == t; }
        t + rx;
      }
    }
  }

  /** No occurrence starting in `t` means none starting in `t[1..]`. */
  lemma UnmatchedTail(t: string, x: string, pat: string)
    requires t != []
    requires forall i | 0 <= i < |t| :: !OccursAt(t + x, pat, i)
    ensures forall i | 0 <= i < |t[1..]| :: !OccursAt(t[1..] + x, pat, i)
  {
    var s := t + x;
    assert s[1..] == t[1..] + x;
    forall i | 0 <= i < |t[1..]| ensures !OccursAt(t[1..] + x, pat, i) {
      assert !OccursAt(s, pat, i + 1);
      if i + |pat| <= |s[1..]| {
        assert s[1..][i..i + |pat|] == s[i + 1..i + 1 + |pat|];
      }
    }
  }

  /** Where the pattern does not start, ReplaceAll keeps the first character. */
  lemma ReplaceAllKeepsFirst(s: string, pat: string, rep: string)
    requires 0 < |pat| <= |s| && !OccursAt(s, pat, 0)
    ensures ReplaceAll(s, pat, rep) == [s[0]] + ReplaceAll(s[1..], pat, rep)
  {
  }

  /** A prefix in which no occurrence of `pat` can start (it holds no
      character `pat` starts with) is copied unchanged. */
  lemma ReplaceAllSkipsPrefix(t: string, x: string, pat: string, rep: string)
    requires |pat| > 0 && Lacks(t, pat[0])
    ensures ReplaceAll(t + x, pat, rep) == t + ReplaceAll(x, pat, rep)
  {
    var s := t + x;
    forall i | 0 <= i < |t| ensures !OccursAt(s, pat, i) {
      if i + |pat| <= |s| {
        assert s[i..i + |pat|][0] == t[i];
      }
    }
    ReplaceAllSkipsUnmatched(t, x, pat, rep);
  }
}

=== FILE: template.dfy ===
/** Named placeholder substitution: the `namedSprintf` helper that renders an
    error's message template, and a single-pass reference substitution.

    A template is a string built from literal text and `${key}` placeholders.
    To reason about it, a template is viewed as the flattening of a list of
    pieces: literal text that holds no `$`, and placeholders whose keys hold
    no `$`, `{` or `}`. Every template of the error model has this shape. */
module Template {
  import opened Wrappers
  import opened Strings

  /** The placeholder spelling of `key`: `${key}`. */
  function Placeholder(key: string): string {
    "${" + key + "}"
  }

  /** A key that can be told apart from the surrounding template syntax. */
  predicate Plain(key: string) {
    Lacks(key, '$') && Lacks(key, '{') && Lacks(key, '}')
  }

  datatype Piece = Text(text: string) | Hole(key: string)

  function Spelling(p: Piece): string {
    match p
    case Text(t) => t
    case Hole(k) => Placeholder(k)
  }

  /** The template string a piece list spells. */
  function Flatten(ps: seq<Piece>): string {
    if ps == [] then "" else Spelling(ps[0]) + Flatten(ps[1..])
  }

  /** Literal text holds no `$`, and a placeholder's key is plain. */
  predicate PieceOk(p: Piece) {
    match p
    case Text(t) => Lacks(t, '$')
    case Hole(k) => Plain(k)
  }

  predicate WellFormed(ps: seq<Piece>) {
    forall i | 0 <= i < |ps| :: PieceOk(ps[i])
  }

  /** The keys of the placeholders in a piece list. */
  function HoleKeys(ps: seq<Piece>): set<string> {
    set i | 0 <= i < |ps| && ps[i].Hole? :: ps[i].key
  }

  function FillPiece(p: Piece, params: map<string, string>, keys: set<string>): Piece {
    if p.Hole? && p.key in keys && p.key in params then Text(params[p.key]) else p
  }

  /** Every placeholder whose key is in `keys` and in `params` replaced by
      its value as literal text; everything else kept. */
  function FillKeys(ps: seq<Piece>, params: map<string, string>, keys: set<string>): (r: seq<Piece>)
    ensures |r| == |ps|
    ensures forall i :: 0 <= i < |ps| ==> r[i] == FillPiece(ps[i], params, keys)
  {
    seq(|ps|, i requires 0 <= i < |ps| => FillPiece(ps[i], params, keys))
  }

  /** Placeholders of `key` replaced by `value`. */
  function Fill(ps: seq<Piece>, key: string, value: string): seq<Piece> {
    FillKeys(ps, map[key := value], {key})
  }

  /** Every placeholder whose key is in `params` replaced by its value. */
  function FillAll(ps: seq<Piece>, params: map<string, string>): seq<Piece> {
    FillKeys(ps, params, params.Keys)
  }

  // ---------------------------------------------------------------------
  // The substitution as written: one ReplaceAll per key, in a key order
  // ---------------------------------------------------------------------

  /** `order` lists the keys of a map once each, as Go's `range` over a map
      does, in an order the language leaves unspecified. */
  predicate Enumerates(order: seq<string>, keys: set<string>) {
    && (forall i, j :: 0 <= i < j < |order| ==> order[i] != order[j])
    && (forall i :: 0 <= i < |order| ==> order[i] in keys)
    && (forall k :: k in keys ==> k in order)
  }

  /** `ReplaceAll` of each key's placeholder by its value, in `order`. */
  function ReplaceEach(format: string, params: map<string, string>, order: seq<string>): string
    requires forall i :: 0 <= i < |order| ==> order[i] in params
    decreases |order|
  {
    if order == [] then format
    else ReplaceEach(ReplaceAll(format, Placeholder(order[0]), params[order[0]]), params, order[1..])
  }

  /** A format mentioning none of the keys comes back unchanged. */
  lemma {:induction false} ReplaceEachAbsent(format: string, params: map<string, string>, order: seq<string>)
    requires forall i :: 0 <= i < |order| ==> order[i] in params
    ensures (forall i :: 0 <= i < |order| ==> !Occurs(format, Placeholder(order[i])))
            ==> ReplaceEach(format, params, order) == format
    decreases |order|
  {
    if order != [] && forall i :: 0 <= i < |order| ==> !Occurs(format, Placeholder(order[i])) {
      ReplaceAllAbsent(format, Placeholder(order[0]), params[order[0]]);
      ReplaceEachAbsent(format, params, order[1..]);
    }
  }

  /** `namedSprintf(format, params)`, with the map's iteration order made
      explicit as `order`; values are already rendered with `%v`. */
  function NamedSprintf(format: string, params: map<string, string>, order: seq<string>): (r: string)
    requires Enumerates(order, params.Keys)
    ensures |params| == 0 ==> r == format
    ensures (forall k :: k in params ==> !Occurs(format, Placeholder(k))) ==> r == format
  {
    ReplaceEachAbsent(format, params, order);
    ReplaceEach(format, params, order)
  }

  /** Replacing along two key lists in a row is replacing along their
      concatenation. */
  lemma {:induction false} ReplaceEachConcat(format: string, params: map<string, string>, o1: seq<string>, o2: seq<string>)
    requires forall i :: 0 <= i < |o1| ==> o1[i] in params
    requires forall i :: 0 <= i < |o2| ==> o2[i] in params
    ensures forall i :: 0 <= i < |o1 + o2| ==> (o1 + o2)[i] in params
    ensures ReplaceEach(format, params, o1 + o2) == ReplaceEach(ReplaceEach(format, params, o1), params, o2)
    decreases |o1|
  {
    assert forall i :: 0 <= i < |o1 + o2| ==> (o1 + o2)[i] in params by {
      forall i | 0 <= i < |o1 + o2| ensures (o1 + o2)[i] in params {
        if i >= |o1| {
          assert (o1 + o2)[i] == o2[i - |o1|];
        }
      }
    }
    if o1 == [] {
      assert o1 + o2 == o2;
    } else {
      assert (o1 + o2)[1..] == o1[1..] + o2;
      ReplaceEachConcat(ReplaceAll(format, Placeholder(o1[0]), params[o1[0]]), params, o1[1..], o2);
    }
  }

  /** Only the values of the listed keys matter. */
  lemma {:induction false} ReplaceEachAgree(format: string, p1: map<string, string>, p2: map<string, string>, order: seq<string>)
    requires forall i :: 0 <= i < |order| ==> order[i] in p1 && order[i] in p2 && p1[order[i]] == p2[order[i]]
    ensures ReplaceEach(format, p1, order) == ReplaceEach(format, p2, order)
    decreases |order|
  {
    if order != [] {
      ReplaceEachAgree(ReplaceAll(format, Placeholder(order[0]), p1[order[0]]), p1, p2, order[1..]);
    }
  }

  // ---------------------------------------------------------------------
  // The intended substitution: one left-to-right pass
  // ---------------------------------------------------------------------

  /** The index of the first `}` in `s` at or after `from`. */
  function CloseBrace(s: string, from: nat): (r: Option<nat>)
    ensures r.Some? ==> from <= r.value < |s| && s[r.value] == '}'
    ensures r.Some? ==> forall i :: from <= i < r.value ==> s[i] != '}'
    ensures r.None? ==> forall i :: from <= i < |s| ==> s[i] != '}'
    decreases |s| - from
  {
    if from >= |s| then None
    else if s[from] == '}' then Some(from)
    else CloseBrace(s, from + 1)
  }

  /** Single-pass substitution: each `${key}` of `s` whose key is in
      `params` is replaced by its value, and inserted values are never
      scanned again. */
  function Expand(s: string, params: map<string, string>): string
    decreases |s|
  {
    if s == [] then ""
    else
      var close := if |s| >= 2 && s[0] == '$' && s[1] == '{' then CloseBrace(s, 2) else None;
      if close.Some? && s[2..close.value] in params then
        params[s[2..close.value]] + Expand(s[close.value + 1..], params)
      else
        [s[0]] + Expand(s[1..], params)
  }

  /** A `${`, a key and the first `}` after it spell that key's placeholder. */
  lemma PlaceholderAtFront(s: string, close: nat)
    requires 2 <= close < |s| && s[0] == '$' && s[1] == '{' && s[close] == '}'
    ensures OccursAt(s, Placeholder(s[2..close]), 0)
  {
    assert s[..2] == "${";
    assert s[..close + 1] == s[..2] + s[2..close] + [s[close]];
  }

  /** A string mentioning no key's placeholder comes back unchanged. */
  lemma {:induction false} ExpandAbsent(s: string, params: map<string, string>)
    requires forall k :: k in params ==> !Occurs(s, Placeholder(k))
    ensures Expand(s, params) == s
    decreases |s|
  {
    if s != [] {
      var close := if |s| >= 2 && s[0] == '$' && s[1] == '{' then CloseBrace(s, 2) else None;
      if close.Some? && s[2..close.value] in params {
        PlaceholderAtFront(s, close.value);
        assert false;
      }
      forall k | k in params ensures !Occurs(s[1..], Placeholder(k)) {
        var pat := Placeholder(k);
        forall i: nat | i <= |s[1..]| ensures !OccursAt(s[1..], pat, i) {
          assert !OccursAt(s, pat, i + 1);
          if i + |pat| <= |s[1..]| {
            assert s[1..][i..i + |pat|] == s[i + 1..i + 1 + |pat|];
          }
        }
      }
      ExpandAbsent(s[1..], params);
      assert [s[0]] + s[1..] == s;
    }
  }

  /** A format mentioning none of the keys' placeholders is left alone by
      both substitutions, in every key order, so they agree on it. */
  lemma NamedSprintfAbsentIsExpand(format: string, params: map<string, string>, order: seq<string>)
    requires Enumerates(order, params.Keys)
    requires forall k :: k in params ==> !Occurs(format, Placeholder(k))
    ensures NamedSprintf(format, params, order) == Expand(format, params) == format
  {
    ExpandAbsent(format, params);
  }

  // ---------------------------------------------------------------------
  // Facts about piece lists
  // ---------------------------------------------------------------------

  lemma {:induction false} FlattenConcat(a: seq<Piece>, b: seq<Piece>)
    ensures Flatten(a + b) == Flatten(a) + Flatten(b)
    decreases |a|
  {
    if a == [] {
      assert a + b == b;
    } else {
      assert (a + b)[1..] == a[1..] + b;
      FlattenConcat(a[1..], b);
    }
  }

  lemma WellFormedConcat(a: seq<Piece>, b: seq<Piece>)
    requires WellFormed(a) && WellFormed(b)
    ensures WellFormed(a + b)
  {
    forall i | 0 <= i < |a + b|
      ensures PieceOk((a + b)[i])
    {
      if i < |a| {
        assert (a + b)[i] == a[i];
      } else {
        assert (a + b)[i] == b[i - |a|];
      }
    }
  }

  lemma HoleKeysConcat(a: seq<Piece>, b: seq<Piece>)
    ensures HoleKeys(a + b) == HoleKeys(a) + HoleKeys(b)
  {
    forall k | k in HoleKeys(a + b) ensures k in HoleKeys(a) + HoleKeys(b) {
      var i :| 0 <= i < |a + b| && (a + b)[i].Hole? && (a + b)[i].key == k;
      if i >= |a| {
        assert b[i - |a|] == (a + b)[i];
      }
    }
    forall k | k in HoleKeys(b) ensures k in HoleKeys(a + b) {
      var i :| 0 <= i < |b| && b[i].Hole? && b[i].key == k;
      assert (a + b)[i + |a|] == b[i];
    }
    forall k | k in HoleKeys(a) ensures k in HoleKeys(a + b) {
      var i :| 0 <= i < |a| && a[i].Hole? && a[i].key == k;
      assert (a + b)[i] == a[i];
    }
  }

  /** Two piece lists that spell each piece alike spell the same template. */
  lemma {:induction false} FlattenSameSpelling(a: seq<Piece>, b: seq<Piece>)
    requires |a| == |b|
    requires forall i :: 0 <= i < |a| ==> Spelling(a[i]) == Spelling(b[i])
    ensures Flatten(a) == Flatten(b)
    decreases |a|
  {
    if a != [] {
      FlattenSameSpelling(a[1..], b[1..]);
    }
  }

  lemma FillKeysTail(ps: seq<Piece>, params: map<string, string>, keys: set<string>)
    requires ps != []
    ensures FillKeys(ps, params, keys)[1..] == FillKeys(ps[1..], params, keys)
  {
  }

  /** Filling depends on the values of the keys the pieces mention only. */
  lemma FillKeysAgree(ps: seq<Piece>, p1: map<string, string>, p2: map<string, string>, keys: set<string>)
    requires forall k :: k in HoleKeys(ps) ==> (k in p1 <==> k in p2) && (k in p1 ==> p1[k] == p2[k])
    ensures FillKeys(ps, p1, keys) == FillKeys(ps, p2, keys)
  {
    forall i | 0 <= i < |ps|
      ensures FillPiece(ps[i], p1, keys) == FillPiece(ps[i], p2, keys)
    {
      if ps[i].Hole? {
        assert ps[i].key in HoleKeys(ps);
      }
    }
  }

  /** A placeholder of a plain key does not start with the placeholder of
      another plain key. */
  lemma PlaceholderMismatch(j: string, k: string, x: string)
    requires Plain(j) && Plain(k) && j != k
    ensures !OccursAt(Placeholder(j) + x, Placeholder(k), 0)
  {
    var s := Placeholder(j) + x;
    var pat := Placeholder(k);
    if |pat| <= |s| {
      var d: nat;
      if |k| < |j| {
        d := |k| + 2;
        assert s[d] == j[|k|];
      } else if |k| > |j| {
        d := |j| + 2;
        assert pat[d] == k[|j|];
      } else {
        var e :| 0 <= e < |j| && j[e] != k[e];
        d := e + 2;
        assert s[d] == j[e] && pat[d] == k[e];
      }
      assert s[..|pat|][d] != pat[d];
    }
  }

  // ---------------------------------------------------------------------
  // ReplaceAll on a well-formed template
  // ---------------------------------------------------------------------

  lemma ReplaceAllSamePlaceholder(j: string, x: string, rep: string)
    ensures ReplaceAll(Placeholder(j) + x, Placeholder(j), rep) == rep + ReplaceAll(x, Placeholder(j), rep)
  {
    var s := Placeholder(j) + x;
    var pat := Placeholder(j);
    assert s[..|pat|] == pat;
    assert s[|pat|..] == x;
  }

  /** Past its leading `$`, the placeholder of a plain key holds no `$`. */
  lemma PlaceholderTailNoDollar(j: string)
    requires Plain(j)
    ensures Lacks("{" + j + "}", '$')
  {
    var tail := "{" + j + "}";
    forall i | 0 <= i < |tail| ensures tail[i] != '$' {
      if 0 < i < |tail| - 1 {
        assert tail[i] == j[i - 1];
      }
    }
  }

  /** A placeholder is a `$` followed by text that holds no `$`. */
  lemma PlaceholderSplit(j: string, x: string)
    ensures (Placeholder(j) + x)[0] == '$'
    ensures (Placeholder(j) + x)[1..] == ("{" + j + "}") + x
    ensures ['$'] + ("{" + j + "}") == Placeholder(j)
  {
  }

  lemma ReplaceAllOtherPlaceholder(j: string, x: string, k: string, rep: string)
    requires Plain(j) && Plain(k) && j != k
    ensures ReplaceAll(Placeholder(j) + x, Placeholder(k), rep) == Placeholder(j) + ReplaceAll(x, Placeholder(k), rep)
  {
    var s := Placeholder(j) + x;
    var pat := Placeholder(k);
    if |s| < |pat| {
      assert ReplaceAll(s, pat, rep) == s;
      assert ReplaceAll(x, pat, rep) == x;
    } else {
      var tail := "{" + j + "}";
      var rx := ReplaceAll(x, pat, rep);
      PlaceholderSplit(j, x);
      PlaceholderMismatch(j, k, x);
      ReplaceAllKeepsFirst(s, pat, rep);
      PlaceholderTailNoDollar(j);
      ReplaceAllSkipsPrefix(tail, x, pat, rep);
      calc {
        ReplaceAll(s, pat, rep);
        [s[0]] + ReplaceAll(tail + x, pat, rep);
        [s[0]] + (tail + rx);
        { assert [s[0]] + (tail + rx) == ([s[0]] + tail) + rx; }
        Placeholder(j) + rx;
      }
    }
  }

  /** ReplaceAll of a placeholder at the front of the string. */
  lemma ReplaceAllPlaceholderPrefix(j: string, x: string, k: string, rep: string)
    requires Plain(j) && Plain(k)
    ensures ReplaceAll(Placeholder(j) + x, Placeholder(k), rep)
         == (if j == k then rep else Placeholder(j)) + ReplaceAll(x, Placeholder(k), rep)
  {
    if j == k {
      ReplaceAllSamePlaceholder(j, x, rep);
    } else {
      ReplaceAllOtherPlaceholder(j, x, k, rep);
    }
  }

  /** One ReplaceAll step on a well-formed template fills exactly the
      placeholders of that key, whatever the value. */
  lemma {:induction false} ReplaceAllFlatten(ps: seq<Piece>, key: string, value: string)
    requires WellFormed(ps) && Plain(key)
    ensures ReplaceAll(Flatten(ps), Placeholder(key), value) == Flatten(Fill(ps, key, value))
    decreases |ps|
  {
    var pat := Placeholder(key);
    if ps == [] {
      assert ReplaceAll("", pat, value) == "";
    } else {
      var filled := Fill(ps, key, value);
      FillKeysTail(ps, map[key := value], {key});
      assert WellFormed(ps[1..]) by {
        forall i | 0 <= i < |ps[1..]| ensures ps[1..][i] == ps[i + 1] { }
      }
      ReplaceAllFlatten(ps[1..], key, value);
      match ps[0]
      case Text(t) =>
        assert PieceOk(ps[0]);
        ReplaceAllSkipsPrefix(t, Flatten(ps[1..]), pat, value);
      case Hole(j) =>
        assert Plain(j);
        ReplaceAllPlaceholderPrefix(j, Flatten(ps[1..]), key, value);
    }
  }

  /** Filling one more key after `keys`. */
  lemma FillKeysStep(ps: seq<Piece>, params: map<string, string>, key: string, keys: set<string>)
    requires key in params
    ensures FillKeys(Fill(ps, key, params[key]), params, keys) == FillKeys(ps, params, keys + {key})
  {
  }

  /** The keys an order lists. */
  function KeySet(order: seq<string>): set<string> {
    set k | k in order
  }

  /** Values are safe to substitute one key after another: no value holds
      a `$`, so no value can spell (part of) a placeholder. */
  predicate SafeParams(params: map<string, string>) {
    forall k :: k in params ==> Plain(k) && Lacks(params[k], '$')
  }

  /** With safe values, the sequential substitution of the keys in `order`
      fills exactly the placeholders of those keys. */
  lemma {:induction false} ReplaceEachFlatten(ps: seq<Piece>, params: map<string, string>, order: seq<string>)
    requires WellFormed(ps) && SafeParams(params)
    requires forall i :: 0 <= i < |order| ==> order[i] in params
    ensures ReplaceEach(Flatten(ps), params, order) == Flatten(FillKeys(ps, params, KeySet(order)))
    decreases |order|
  {
    if order == [] {
      assert FillKeys(ps, params, KeySet(order)) == ps;
    } else {
      var k := order[0];
      ReplaceAllFlatten(ps, k, params[k]);
      var ps1 := Fill(ps, k, params[k]);
      assert WellFormed(ps1);
      ReplaceEachFlatten(ps1, params, order[1..]);
      FillKeysStep(ps, params, k, KeySet(order[1..]));
      assert KeySet(order[1..]) + {k} == KeySet(order);
    }
  }

  /** `namedSprintf` with safe values fills every placeholder whose key is a
      parameter, whatever order the keys are visited in. */
  lemma NamedSprintfFlatten(ps: seq<Piece>, params: map<string, string>, order: seq<string>)
    requires WellFormed(ps) && SafeParams(params)
    requires Enumerates(order, params.Keys)
    ensures NamedSprintf(Flatten(ps), params, order) == Flatten(FillAll(ps, params))
  {
    ReplaceEachFlatten(ps, params, order);
    assert KeySet(order) == params.Keys;
  }

  /** Map iteration order does not change what `namedSprintf` produces on a
      well-formed template when no value holds a `$`. */
  lemma NamedSprintfOrderIndependent(ps: seq<Piece>, params: map<string, string>, o1: seq<string>, o2: seq<string>)
    requires WellFormed(ps) && SafeParams(params)
    requires Enumerates(o1, params.Keys) && Enumerates(o2, params.Keys)
    ensures NamedSprintf(Flatten(ps), params, o1) == NamedSprintf(Flatten(ps), params, o2)
  {
    NamedSprintfFlatten(ps, params, o1);
    NamedSprintfFlatten(ps, params, o2);
  }

  lemma WellFormedTail(ps: seq<Piece>)
    requires ps != [] && WellFormed(ps)
    ensures PieceOk(ps[0]) && WellFormed(ps[1..])
    ensures HoleKeys(ps[1..]) <= HoleKeys(ps)
  {
    forall i | 0 <= i < |ps[1..]| ensures ps[1..][i] == ps[i + 1] { }
    forall k | k in HoleKeys(ps[1..]) ensures k in HoleKeys(ps) {
      var i :| 0 <= i < |ps[1..]| && ps[1..][i].Hole? && ps[1..][i].key == k;
      assert ps[i + 1].key == k;
    }
  }

  /** No placeholder of `key` starts inside a piece that is not a
      placeholder of `key`. */
  lemma NoPlaceholderInPiece(p: Piece, key: string, rest: string, i: nat)
    requires PieceOk(p) && Plain(key) && p != Hole(key)
    requires i < |Spelling(p)|
    ensures !OccursAt(Spelling(p) + rest, Placeholder(key), i)
  {
    var pat := Placeholder(key);
    var s := Spelling(p) + rest;
    if i + |pat| <= |s| {
      match p
      case Text(t) =>
        assert s[i..i + |pat|][0] == t[i] != pat[0];
      case Hole(j) =>
        if i == 0 {
          PlaceholderMismatch(j, key, rest);
        } else {
          PlaceholderTailNoDollar(j);
          assert Placeholder(j)[i] == ("{" + j + "}")[i - 1];
          assert s[i..i + |pat|][0] == Placeholder(j)[i] != pat[0];
        }
    }
  }

  /** An occurrence past the first piece is an occurrence in the rest. */
  lemma OccursAtPastHead(head: string, rest: string, pat: string, i: nat)
    requires |head| <= i && OccursAt(head + rest, pat, i)
    ensures OccursAt(rest, pat, i - |head|)
  {
    assert (head + rest)[i..i + |pat|] == rest[i - |head|..i - |head| + |pat|];
  }

  /** A well-formed template without a placeholder of `key` does not contain
      `${key}`. */
  lemma {:induction false} NoPlaceholderWithoutHole(ps: seq<Piece>, key: string)
    requires WellFormed(ps) && Plain(key)
    requires key !in HoleKeys(ps)
    ensures !Occurs(Flatten(ps), Placeholder(key))
    decreases |ps|
  {
    if ps != [] {
      var pat := Placeholder(key);
      var head := Spelling(ps[0]);
      var rest := Flatten(ps[1..]);
      WellFormedTail(ps);
      NoPlaceholderWithoutHole(ps[1..], key);
      assert ps[0] != Hole(key) by {
        if ps[0].Hole? {
          assert ps[0].key in HoleKeys(ps);
        }
      }
      forall i: nat | i <= |head + rest| ensures !OccursAt(head + rest, pat, i) {
        if i < |head| {
          NoPlaceholderInPiece(ps[0], key, rest, i);
        } else if OccursAt(head + rest, pat, i) {
          OccursAtPastHead(head, rest, pat, i);
        }
      }
    }
  }

  /** After one ReplaceAll step with a value holding no `$`, no placeholder of
      that key is left in a well-formed template. */
  lemma ReplaceAllRemovesKey(ps: seq<Piece>, key: string, value: string)
    requires WellFormed(ps) && Plain(key) && Lacks(value, '$')
    ensures !Occurs(ReplaceAll(Flatten(ps), Placeholder(key), value), Placeholder(key))
  {
    ReplaceAllFlatten(ps, key, value);
    var filled := Fill(ps, key, value);
    assert WellFormed(filled);
    NoPlaceholderWithoutHole(filled, key);
  }

  // ---------------------------------------------------------------------
  // The single-pass substitution on a well-formed template
  // ---------------------------------------------------------------------

  lemma {:induction false} ExpandSkipsText(t: string, x: string, params: map<string, string>)
    requires Lacks(t, '$')
    ensures Expand(t + x, params) == t + Expand(x, params)
    decreases |t|
  {
    if t == [] {
      assert t + x == x;
    } else {
      assert (t + x)[0] == t[0] && (t + x)[1..] == t[1..] + x;
      ExpandSkipsText(t[1..], x, params);
      assert [t[0]] + t[1..] == t;
    }
  }

  /** The first `}` of a placeholder of a plain key is its closing one. */
  lemma PlaceholderCloses(j: string, x: string)
    requires Plain(j)
    ensures CloseBrace(Placeholder(j) + x, 2) == Some(|j| + 2)
    ensures (Placeholder(j) + x)[2..|j| + 2] == j
    ensures (Placeholder(j) + x)[|j| + 3..] == x
  {
    var s := Placeholder(j) + x;
    assert s[|j| + 2] == '}';
    forall i | 2 <= i < |j| + 2 ensures s[i] != '}' {
      assert s[i] == j[i - 2];
    }
  }

  lemma ExpandKnownPlaceholder(j: string, x: string, params: map<string, string>)
    requires Plain(j) && j in params
    ensures Expand(Placeholder(j) + x, params) == params[j] + Expand(x, params)
  {
    PlaceholderCloses(j, x);
  }

  /** A placeholder of an unknown key is passed over one character at a time. */
  lemma ExpandUnknownFirst(j: string, x: string, params: map<string, string>)
    requires Plain(j) && j !in params
    ensures Expand(Placeholder(j) + x, params) == [(Placeholder(j) + x)[0]] + Expand((Placeholder(j) + x)[1..], params)
  {
    var s := Placeholder(j) + x;
    PlaceholderCloses(j, x);
    assert s[2..CloseBrace(s, 2).value] !in params;
  }

  lemma ExpandUnknownPlaceholder(j: string, x: string, params: map<string, string>)
    requires Plain(j) && j !in params
    ensures Expand(Placeholder(j) + x, params) == Placeholder(j) + Expand(x, params)
  {
    var s := Placeholder(j) + x;
    var tail := "{" + j + "}";
    ExpandUnknownFirst(j, x, params);
    PlaceholderSplit(j, x);
    PlaceholderTailNoDollar(j);
    ExpandSkipsText(tail, x, params);
  }

  lemma ExpandPlaceholderPrefix(j: string, x: string, params: map<string, string>)
    requires Plain(j)
    ensures Expand(Placeholder(j) + x, params)
         == (if j in params then params[j] else Placeholder(j)) + Expand(x, params)
  {
    if j in params {
      ExpandKnownPlaceholder(j, x, params);
    } else {
      ExpandUnknownPlaceholder(j, x, params);
    }
  }

  /** The single-pass substitution fills every placeholder whose key is a
      parameter with its value, verbatim, whatever the values hold. */
  lemma {:induction false} ExpandFlatten(ps: seq<Piece>, params: map<string, string>)
    requires WellFormed(ps)
    ensures Expand(Flatten(ps), params) == Flatten(FillAll(ps, params))
    decreases |ps|
  {
    if ps != [] {
      FillKeysTail(ps, params, params.Keys);
      assert WellFormed(ps[1..]) by {
        forall i | 0 <= i < |ps[1..]| ensures ps[1..][i] == ps[i + 1] { }
      }
      ExpandFlatten(ps[1..], params);
      match ps[0]
      case Text(t) =>
        assert PieceOk(ps[0]);
        ExpandSkipsText(t, Flatten(ps[1..]), params);
      case Hole(j) =>
        assert Plain(j);
        ExpandPlaceholderPrefix(j, Flatten(ps[1..]), params);
    }
  }

  /** With safe values, `namedSprintf` agrees with the single-pass
      substitution, for every key order. */
  lemma NamedSprintfIsExpand(ps: seq<Piece>, params: map<string, string>, order: seq<string>)
    requires WellFormed(ps) && SafeParams(params)
    requires Enumerates(order, params.Keys)
    ensures NamedSprintf(Flatten(ps), params, order) == Expand(Flatten(ps), params)
  {
    NamedSprintfFlatten(ps, params, order);
    ExpandFlatten(ps, params);
  }

  // ---------------------------------------------------------------------
  // Values free of `${` on templates whose placeholders are separated
  // ---------------------------------------------------------------------

  /** A piece that keeps a value ending in `$` from opening a placeholder:
      literal text that is not empty and does not start with `{`. */
  predicate Guards(p: Piece) {
    p.Text? && p.text != [] && p.text[0] != '{'
  }

  /** Every placeholder, unless it is the last piece, is followed by a
      guarding text. */
  predicate Separated(ps: seq<Piece>) {
    forall i | 0 <= i < |ps| - 1 :: ps[i].Hole? ==> Guards(ps[i + 1])
  }

  /** No value holds `${`, and every key is plain. */
  predicate OpenFreeParams(params: map<string, string>) {
    forall k :: k in params ==> Plain(k) && !Occurs(params[k], "${")
  }

  /** Text that may hold `$`, but whose spelling shows `${` only where a
      placeholder starts: no text holds `${`, and a text ending in `$` is not
      followed by `{`. */
  predicate OpensOnlyAtHoles(ps: seq<Piece>)
    decreases |ps|
  {
    if ps == [] then true
    else match ps[0]
      case Hole(j) => Plain(j) && OpensOnlyAtHoles(ps[1..])
      case Text(t) =>
        && !Occurs(t, "${")
        && (t != [] && t[|t| - 1] == '$' ==> Flatten(ps[1..]) == [] || Flatten(ps[1..])[0] != '{')
        && OpensOnlyAtHoles(ps[1..])
  }

  /** A `$` followed by `{` is an occurrence of `${`. */
  lemma OpenAt(s: string, i: nat)
    requires i + 1 < |s| && s[i] == '$' && s[i + 1] == '{'
    ensures Occurs(s, "${")
  {
    assert s[i..i + 2] == "${";
    assert OccursAt(s, "${", i);
  }

  /** Text without `$` holds no `${`. */
  lemma LacksDollarNoOpen(s: string)
    requires Lacks(s, '$')
    ensures !Occurs(s, "${")
  {
    forall i: nat | i <= |s| ensures !OccursAt(s, "${", i) {
      if i + 2 <= |s| {
        assert s[i..i + 2][0] == s[i];
      }
    }
  }

  /** Text without `$` holds no placeholder. */
  lemma PlaceholderNeedsDollar(s: string, key: string)
    requires Lacks(s, '$')
    ensures !Occurs(s, Placeholder(key))
  {
    forall i: nat | i <= |s| ensures !OccursAt(s, Placeholder(key), i) {
      if i + |Placeholder(key)| <= |s| {
        assert s[i..i + |Placeholder(key)|][0] == s[i];
      }
    }
  }

  /** In text holding no `${`, a `$` is not followed by `{`. */
  lemma NoOpenAt(s: string, i: nat)
    requires !Occurs(s, "${") && i + 1 < |s| && s[i] == '$'
    ensures s[i + 1] != '{'
  {
    if s[i + 1] == '{' {
      OpenAt(s, i);
    }
  }

  /** No placeholder starts inside literal text holding no `${` that, when it
      ends in `$`, is not followed by `{`. */
  lemma NoPlaceholderInText(t: string, x: string, key: string)
    requires !Occurs(t, "${")
    requires t != [] && t[|t| - 1] == '$' ==> x == [] || x[0] != '{'
    ensures forall i | 0 <= i < |t| :: !OccursAt(t + x, Placeholder(key), i)
  {
    var pat := Placeholder(key);
    var s := t + x;
    assert pat[0] == '$' && pat[1] == '{';
    forall i | 0 <= i < |t| ensures !OccursAt(s, pat, i) {
      if i + |pat| <= |s| {
        var w := s[i..i + |pat|];
        if s[i] != '$' {
          assert w[0] != pat[0];
        } else {
          if i + 1 < |t| {
            NoOpenAt(t, i);
            assert s[i + 1] == t[i + 1];
          } else {
            assert s[i + 1] == x[0];
          }
          assert w[1] != pat[1];
        }
      }
    }
  }

  /** One ReplaceAll step fills exactly the placeholders of that key in a
      piece list that shows `${` only where a placeholder starts. */
  lemma {:induction false} ReplaceAllFlattenOpens(qs: seq<Piece>, key: string, value: string)
    requires OpensOnlyAtHoles(qs) && Plain(key)
    ensures ReplaceAll(Flatten(qs), Placeholder(key), value) == Flatten(Fill(qs, key, value))
    decreases |qs|
  {
    var pat := Placeholder(key);
    if qs == [] {
      assert ReplaceAll("", pat, value) == "";
    } else {
      FillKeysTail(qs, map[key := value], {key});
      ReplaceAllFlattenOpens(qs[1..], key, value);
      match qs[0]
      case Text(t) =>
        NoPlaceholderInText(t, Flatten(qs[1..]), key);
        ReplaceAllSkipsUnmatched(t, Flatten(qs[1..]), pat, value);
      case Hole(j) =>
        ReplaceAllPlaceholderPrefix(j, Flatten(qs[1..]), key, value);
    }
  }

  lemma SeparatedTail(ps: seq<Piece>)
    requires ps != [] && Separated(ps)
    ensures Separated(ps[1..])
  {
    forall i | 0 <= i < |ps[1..]| - 1 ensures ps[1..][i].Hole? ==> Guards(ps[1..][i + 1]) {
      assert ps[1..][i] == ps[i + 1] && ps[1..][i + 1] == ps[i + 2];
    }
  }

  /** Filling any placeholders of a well-formed, separated template with
      values free of `${` shows `${` only where a placeholder is left. */
  lemma {:induction false} FillKeysOpensOnlyAtHoles(ps: seq<Piece>, params: map<string, string>, keys: set<string>)
    requires WellFormed(ps) && Separated(ps) && OpenFreeParams(params)
    ensures OpensOnlyAtHoles(FillKeys(ps, params, keys))
    decreases |ps|
  {
    if ps != [] {
      var qs := FillKeys(ps, params, keys);
      FillKeysTail(ps, params, keys);
      WellFormedTail(ps);
      SeparatedTail(ps);
      FillKeysOpensOnlyAtHoles(ps[1..], params, keys);
      match qs[0]
      case Hole(j) =>
      case Text(t) =>
        if ps[0].Text? {
          LacksDollarNoOpen(t);
        } else if t != [] && t[|t| - 1] == '$' && |ps| > 1 {
          assert Guards(ps[1]);
          assert qs[1] == ps[1];
          assert Flatten(qs[1..]) == ps[1].text + Flatten(qs[1..][1..]);
        }
    }
  }

  /** Filling one more key after `keys`. */
  lemma FillKeysThen(ps: seq<Piece>, params: map<string, string>, keys: set<string>, key: string)
    requires key in params
    ensures Fill(FillKeys(ps, params, keys), key, params[key]) == FillKeys(ps, params, keys + {key})
  {
  }

  /** With values free of `${`, on a well-formed separated template, the
      sequential substitution of the keys in `order` fills exactly the
      placeholders of those keys. */
  lemma {:induction false} ReplaceEachFillsSeparated(ps: seq<Piece>, params: map<string, string>, keys: set<string>,
                                                     order: seq<string>)
    requires WellFormed(ps) && Separated(ps) && OpenFreeParams(params)
    requires forall i :: 0 <= i < |order| ==> order[i] in params
    ensures ReplaceEach(Flatten(FillKeys(ps, params, keys)), params, order)
         == Flatten(FillKeys(ps, params, keys + KeySet(order)))
    decreases |order|
  {
    if order == [] {
      assert keys + KeySet(order) == keys;
    } else {
      var k := order[0];
      FillKeysOpensOnlyAtHoles(ps, params, keys);
      ReplaceAllFlattenOpens(FillKeys(ps, params, keys), k, params[k]);
      FillKeysThen(ps, params, keys, k);
      ReplaceEachFillsSeparated(ps, params, keys + {k}, order[1..]);
      assert keys + {k} + KeySet(order[1..]) == keys + KeySet(order);
    }
  }

  /** On a well-formed separated template, values free of `${` suffice:
      `namedSprintf` fills every placeholder whose key is a parameter, in
      every key order, and agrees with the single-pass substitution. */
  lemma NamedSprintfSeparated(ps: seq<Piece>, params: map<string, string>, order: seq<string>)
    requires WellFormed(ps) && Separated(ps) && OpenFreeParams(params)
    requires Enumerates(order, params.Keys)
    ensures NamedSprintf(Flatten(ps), params, order) == Flatten(FillAll(ps, params))
    ensures NamedSprintf(Flatten(ps), params, order) == Expand(Flatten(ps), params)
  {
    assert FillKeys(ps, params, {}) == ps;
    ReplaceEachFillsSeparated(ps, params, {}, order);
    assert {} + KeySet(order) == params.Keys;
    ExpandFlatten(ps, params);
  }

  /** Map iteration order does not change what `namedSprintf` produces on a
      well-formed separated template when no value holds `${`. */
  lemma NamedSprintfSeparatedOrderIndependent(ps: seq<Piece>, params: map<string, string>,
                                              o1: seq<string>, o2: seq<string>)
    requires WellFormed(ps) && Separated(ps) && OpenFreeParams(params)
    requires Enumerates(o1, params.Keys) && Enumerates(o2, params.Keys)
    ensures NamedSprintf(Flatten(ps), params, o1) == NamedSprintf(Flatten(ps), params, o2)
  {
    NamedSprintfSeparated(ps, params, o1);
    NamedSprintfSeparated(ps, params, o2);
  }

  /** Joining two separated lists keeps them separated when a placeholder
      ending the first is followed by a guarding text. */
  lemma SeparatedConcat(a: seq<Piece>, b: seq<Piece>)
    requires Separated(a) && Separated(b)
    requires a != [] && a[|a| - 1].Hole? ==> b != [] && Guards(b[0])
    ensures Separated(a + b)
  {
    forall i | 0 <= i < |a + b| - 1 ensures (a + b)[i].Hole? ==> Guards((a + b)[i + 1]) {
      if i < |a| - 1 {
        assert (a + b)[i] == a[i] && (a + b)[i + 1] == a[i + 1];
      } else if i == |a| - 1 {
        assert (a + b)[i] == a[i] && (a + b)[i + 1] == b[0];
      } else {
        assert (a + b)[i] == b[i - |a|] && (a + b)[i + 1] == b[i - |a| + 1];
      }
    }
  }

  /** Placeholders of `from` renamed to `to`. */
  function RenameHole(ps: seq<Piece>, from: string, to: string): (r: seq<Piece>)
    ensures |r| == |ps|
    ensures forall i :: 0 <= i < |ps| ==> r[i] == (if ps[i] == Hole(from) then Hole(to) else ps[i])
  {
    seq(|ps|, i requires 0 <= i < |ps| => if ps[i] == Hole(from) then Hole(to) else ps[i])
  }

  /** Filling `from` with the placeholder of `to` spells the same template
      as renaming `from` to `to`; the renamed list is well-formed. */
  lemma FillWithPlaceholder(ps: seq<Piece>, from: string, to: string)
    requires WellFormed(ps) && Plain(to)
    ensures Flatten(Fill(ps, from, Placeholder(to))) == Flatten(RenameHole(ps, from, to))
    ensures WellFormed(RenameHole(ps, from, to))
    ensures HoleKeys(RenameHole(ps, from, to)) <= HoleKeys(ps) - {from} + {to}
  {
    var filled := Fill(ps, from, Placeholder(to));
    var renamed := RenameHole(ps, from, to);
    FlattenSameSpelling(filled, renamed);
    forall k | k in HoleKeys(renamed) ensures k in HoleKeys(ps) - {from} + {to} {
      var i :| 0 <= i < |renamed| && renamed[i].Hole? && renamed[i].key == k;
      assert ps[i] == Hole(from) || ps[i] == renamed[i];
    }
  }

  /** The template splits around any one of its pieces. */
  lemma FlattenAround(ps: seq<Piece>, i: nat)
    requires i < |ps|
    ensures Flatten(ps) == Flatten(ps[..i]) + Spelling(ps[i]) + Flatten(ps[i + 1..])
  {
    var back := ps[i..];
    assert ps == ps[..i] + back;
    FlattenConcat(ps[..i], back);
    assert back[0] == ps[i] && back[1..] == ps[i + 1..];
    assert Flatten(back) == Spelling(ps[i]) + Flatten(ps[i + 1..]);
  }

  /** Text pieces without `c` spell a template without `c`. */
  lemma {:induction false} FlattenTextsLack(ps: seq<Piece>, c: char)
    requires forall i :: 0 <= i < |ps| ==> ps[i].Text? && Lacks(ps[i].text, c)
    ensures Lacks(Flatten(ps), c)
    decreases |ps|
  {
    if ps != [] {
      FlattenTextsLack(ps[1..], c);
      var h, t := Spelling(ps[0]), Flatten(ps[1..]);
      forall i | 0 <= i < |h + t| ensures (h + t)[i] != c {
        if i >= |h| {
          assert (h + t)[i] == t[i - |h|];
        }
      }
    }
  }

  /** The first key of an enumeration, and the rest enumerating the others. */
  lemma EnumeratesTail(key: string, rest: seq<string>, keys: set<string>)
    requires Enumerates([key] + rest, keys)
    ensures key in keys && key !in KeySet(rest)
    ensures KeySet(rest) == keys - {key}
  {
    var order := [key] + rest;
    forall i | 0 <= i < |rest| ensures rest[i] != key {
      assert order[0] != order[i + 1];
    }
    forall k | k in keys - {key} ensures k in KeySet(rest) {
      var j :| 0 <= j < |order| && order[j] == k;
      assert j > 0 && rest[j - 1] == k;
    }
    forall k | k in KeySet(rest) ensures k in keys - {key} {
      var j :| 0 <= j < |rest| && rest[j] == k;
      assert order[j + 1] == k;
    }
  }

  /** A key list enumerating all keys but one, with that one put first or
      last, enumerates all keys. */
  lemma EnumeratesAround(key: string, rest: seq<string>, keys: set<string>)
    requires forall i, j | 0 <= i < j < |rest| :: rest[i] != rest[j]
    requires forall i | 0 <= i < |rest| :: rest[i] in keys
    requires forall k | k in keys :: k in rest || k == key
    requires key in keys && key !in rest
    ensures Enumerates([key] + rest, keys) && Enumerates(rest + [key], keys)
  {
    var first, last := [key] + rest, rest + [key];
    forall i, j | 0 <= i < j < |first| ensures first[i] != first[j] {
      assert first[j] == rest[j - 1];
      if i > 0 {
        assert first[i] == rest[i - 1];
      }
    }
    forall i, j | 0 <= i < j < |last| ensures last[i] != last[j] {
      assert last[i] == rest[i];
      if j < |rest| {
        assert last[j] == rest[j];
      }
    }
    forall k | k in keys ensures k in first && k in last {
      if k != key {
        var i :| 0 <= i < |rest| && rest[i] == k;
        assert first[i + 1] == k && last[i] == k;
      } else {
        assert first[0] == k && last[|rest|] == k;
      }
    }
  }

  /** Substituting `key` first, with the placeholder of another key as its
      value: that placeholder is filled in turn, and when every other value
      is free of `$`, so is the result. */
  lemma InsertedPlaceholderFilled(ps: seq<Piece>, params: map<string, string>, safe: map<string, string>,
                                  key: string, other: string, rest: seq<string>)
    requires WellFormed(ps) && Plain(key) && Plain(other) && SafeParams(safe)
    requires key in params && params[key] == Placeholder(other)
    requires HoleKeys(ps) <= KeySet(rest) + {key} && other in KeySet(rest)
    requires forall i :: 0 <= i < |rest| ==> rest[i] in params && rest[i] in safe && params[rest[i]] == safe[rest[i]]
    ensures forall i :: 0 <= i < |[key] + rest| ==> ([key] + rest)[i] in params
    ensures Lacks(ReplaceEach(Flatten(ps), params, [key] + rest), '$')
  {
    ReplaceEachConcat(Flatten(ps), params, [key], rest);
    assert [key][1..] == [];
    ReplaceAllFlatten(ps, key, Placeholder(other));
    FillWithPlaceholder(ps, key, other);
    var renamed := RenameHole(ps, key, other);
    ReplaceEachAgree(Flatten(renamed), params, safe, rest);
    ReplaceEachFlatten(renamed, safe, rest);
    var filled := FillKeys(renamed, safe, KeySet(rest));
    forall i | 0 <= i < |filled| ensures filled[i].Text? && Lacks(filled[i].text, '$') {
      assert PieceOk(renamed[i]);
      if renamed[i].Hole? {
        assert renamed[i].key in HoleKeys(renamed);
        assert renamed[i].key in KeySet(rest);
        var j :| 0 <= j < |rest| && rest[j] == renamed[i].key;
      }
    }
    FlattenTextsLack(filled, '$');
  }

  /** Substituting `key` last, with a placeholder as its value: the other
      keys leave its placeholder in place, and the inserted placeholder
      stays in the result. */
  lemma InsertedPlaceholderKept(ps: seq<Piece>, params: map<string, string>, safe: map<string, string>,
                                key: string, other: string, rest: seq<string>, at: nat)
    requires WellFormed(ps) && Plain(key) && SafeParams(safe)
    requires key in params && params[key] == Placeholder(other)
    requires at < |ps| && ps[at] == Hole(key) && key !in KeySet(rest)
    requires forall i :: 0 <= i < |rest| ==> rest[i] in params && rest[i] in safe && params[rest[i]] == safe[rest[i]]
    ensures forall i :: 0 <= i < |rest + [key]| ==> (rest + [key])[i] in params
    ensures Occurs(ReplaceEach(Flatten(ps), params, rest + [key]), Placeholder(other))
  {
    ReplaceEachConcat(Flatten(ps), params, rest, [key]);
    assert [key][1..] == [];
    ReplaceEachAgree(Flatten(ps), params, safe, rest);
    ReplaceEachFlatten(ps, safe, rest);
    var partial := FillKeys(ps, safe, KeySet(rest));
    assert WellFormed(partial) by {
      forall i | 0 <= i < |partial| ensures PieceOk(partial[i]) {
        assert PieceOk(ps[i]);
      }
    }
    ReplaceAllFlatten(partial, key, Placeholder(other));
    var done := Fill(partial, key, Placeholder(other));
    assert done[at] == Text(Placeholder(other));
    FlattenAround(done, at);
    var before, inserted := Flatten(done[..at]), Placeholder(other);
    assert (before + inserted + Flatten(done[at + 1..]))[|before|..|before| + |inserted|] == inserted;
    assert OccursAt(Flatten(done), inserted, |before|);
  }

  /** The template `${a}{b}` of the counterexample below. */
  const BraceAfterHole: seq<Piece> := [Hole("a"), Text("{b}")]

  /** Its values: `a` ends in `$`, yet neither value holds `${`. */
  const DollarEndingParams: map<string, string> := map["a" := "$", "b" := "x"]

  lemma DollarEndingParamsHoldNoDollarBrace()
    ensures forall k :: k in DollarEndingParams ==> Plain(k) && !Occurs(DollarEndingParams[k], "${")
  {
    assert !Occurs("$", "${") && !Occurs("x", "${");
  }

  lemma BraceAfterHoleWellFormed()
    ensures WellFormed(BraceAfterHole) && Plain("a") && Plain("b")
  {
  }

  /** Filling `a` with `$` spells `${b}`. */
  lemma DollarEndingFillA()
    ensures ReplaceAll(Flatten(BraceAfterHole), Placeholder("a"), "$") == "${b}"
  {
    BraceAfterHoleWellFormed();
    ReplaceAllFlatten(BraceAfterHole, "a", "$");
    assert Fill(BraceAfterHole, "a", "$") == [Text("$"), Text("{b}")];
  }

  /** The template has no `${b}` for key `b` to fill. */
  lemma DollarEndingSkipB()
    ensures ReplaceAll(Flatten(BraceAfterHole), Placeholder("b"), "x") == Flatten(BraceAfterHole)
  {
    BraceAfterHoleWellFormed();
    ReplaceAllFlatten(BraceAfterHole, "b", "x");
    assert Fill(BraceAfterHole, "b", "x") == BraceAfterHole;
  }

  /** Once spelled, `${b}` is filled by key `b` and left alone by key `a`. */
  lemma DollarEndingSpelledB()
    ensures ReplaceAll("${b}", Placeholder("b"), "x") == "x"
    ensures ReplaceAll("${b}", Placeholder("a"), "$") == "${b}"
  {
    BraceAfterHoleWellFormed();
    assert Placeholder("b") + "" == "${b}";
    ReplaceAllSamePlaceholder("b", "", "x");
    ReplaceAllOtherPlaceholder("b", "", "a", "$");
  }

  lemma DollarEndingOrders()
    ensures Enumerates(["a", "b"], DollarEndingParams.Keys)
    ensures Enumerates(["b", "a"], DollarEndingParams.Keys)
  {
  }

  /** Key `a` first: its value ends in `$` and spells `${b}` with the
      following text, which key `b` then fills. */
  lemma DollarEndingKeyFirst()
    ensures Enumerates(["a", "b"], DollarEndingParams.Keys)
    ensures NamedSprintf(Flatten(BraceAfterHole), DollarEndingParams, ["a", "b"]) == "x"
  {
    DollarEndingOrders();
    DollarEndingFillA();
    DollarEndingSpelledB();
    var order := ["a", "b"];
    assert order[1..] == ["b"] && order[1..][1..] == [];
  }

  /** Key `b` first: there is no `${b}` yet, and key `a` then leaves one. */
  lemma DollarEndingKeyLast()
    ensures Enumerates(["b", "a"], DollarEndingParams.Keys)
    ensures NamedSprintf(Flatten(BraceAfterHole), DollarEndingParams, ["b", "a"]) == "${b}"
  {
    DollarEndingOrders();
    DollarEndingSkipB();
    DollarEndingFillA();
    var order := ["b", "a"];
    assert order[1..] == ["a"] && order[1..][1..] == [];
  }

  /** Values without `${` are not enough for order independence on a
      template that is not separated: a value ending in `$` before literal
      text `{b}` spells a new placeholder. */
  lemma DollarBraceFreeNotEnough()
    ensures WellFormed(BraceAfterHole) && !Separated(BraceAfterHole)
    ensures forall k :: k in DollarEndingParams ==> Plain(k) && !Occurs(DollarEndingParams[k], "${")
    ensures Enumerates(["a", "b"], DollarEndingParams.Keys) && Enumerates(["b", "a"], DollarEndingParams.Keys)
    ensures NamedSprintf(Flatten(BraceAfterHole), DollarEndingParams, ["a", "b"])
         != NamedSprintf(Flatten(BraceAfterHole), DollarEndingParams, ["b", "a"])
  {
    BraceAfterHoleWellFormed();
    DollarEndingParamsHoldNoDollarBrace();
    DollarEndingKeyFirst();
    DollarEndingKeyLast();
  }
}

=== FILE: wrappers.dfy ===
/** The optional-value datatype used throughout the model. */
module Wrappers {

  /** `None` stands for Go's `nil` (an absent error, a failed decode). */
  datatype Option<+T> = None | Some(value: T)
}
